=== FILE: README.md ===
# Space station idle game — rules model

A Dafny model of the game rules in `game.js`, a browser idle game about a
space station that earns energy, explores a fog-of-war map of "financial
product" planets, and flies a shuttle minigame. Everything that is drawing,
DOM or browser plumbing is dropped. What is left is modelled as immutable
datatypes and pure transition functions over `real`.

- `Tables` (`tables.dfy`): the planet product table, the bank boosters, and
  the station levels with the `find(...) || STATION_LEVELS[0]` fallback.
  It also holds the random-draw helpers. A `Math.random()` value is a `real`
  in [0, 1). The minigame reads them from a stream `nat -> real` with a cursor.
  A generic order-keeping `Filter` serves booster expiry and the minigame's
  two removal passes. Those passes run backwards with `splice`, which the
  model relates to the forward filter one element at a time.
- `World` (`world.dfy`): the persisted game state (`DEFAULT_STATE`), areas,
  planets and boosters. `Valid` is the invariant every transition keeps.
- `Economy` (`economy.dfy`): the station tick's economy part (booster expiry,
  income with multipliers, capacity cap, the 200 ms frame cap), the level
  upgrade button and the booster purchase buttons: their handlers
  (`Upgrade`, `Purchase`) and the buttons as drawn (`PressUpgrade`,
  `PressPurchase`), which stay disabled when the energy at the moment the
  panel opened did not cover the cost.
- `Planets` (`planets.dfy`): `spawnPlanet`, the first-match click hit test,
  `handlePlanetClick` and `updatePlanetExploration`. A planet goes
  idle → exploring → explored.
- `Fog` (`fog.dfy`): the home area, the containment query, `revealArea`, and
  the camera drag clamp.
- `OxygenClock` (`oxygen.dfy`): the minigame's oxygen accumulator.
- `Minigame` (`minigame.dfy`): asteroids and pickups, the spawn functions,
  the booster timer, steering, falling, and the two collision passes with
  the pickup effects.
- `Flight` (`flight.dfy`): starting a run, the frame `step`, and the run
  invariant `RunOk`.
- `Game` (`game.dfy`): the top-level transitions on the game state: the
  station tick, the map click and the flight-completion merge. The panel
  buttons (`Economy.Upgrade`, `Economy.Purchase`, and so `Economy.PressUpgrade`
  and `Economy.PressPurchase`) keep `Valid` outright, and
  so does a click. The tick keeps it when its frame clock does not run
  backwards (`now >= lastTick`). The merge keeps it when the collected energy
  is not negative. The minigame frame is `Flight.Step`, which keeps the run
  invariant under the same condition on its frame clock.

Clocks and randomness are parameters. The frame timestamps (`now`,
`lastTick`, `last`) are `real`. `Date.now()` is an `int` wall-clock value.
The random numbers of a reveal come in a `RevealDraws` record. The minigame's
random numbers are consumed from the stream in JavaScript evaluation order,
including short-circuits: a draw that is only made on one branch is consumed
only on that branch. Distances compare squared lengths instead of calling
`Math.hypot`. `World.SquareCompare` shows that for a non-negative distance
the two tests agree. Each hit test has a `...ByDistance` lemma that states it
against the distance itself.

Where the code and its comments disagree, the model follows the code:

- exploration advances 0.01 per millisecond (100 in 10 s), not 1% per second;
- a cargo container's booster does not count against the three-booster limit;
- the credit booster's bonus is added without a cap, so energy can sit above
  capacity until the next tick (`Economy.CreditCanExceedCapacity`);
- the minigame writes `sessionCargoSpawned` and `missionsCompleted` straight
  into the persisted state, so a frame takes and returns the game state;
- `sessionCargoSpawned` is never cleared anywhere in the code, so after the
  first cargo no later flight can spawn one.

## Model

| member | source | states |
|---|---|---|
| Tables.Filter | game.js:621-624 | a filter pass never adds elements: the result is at most as long as the input |
| Tables.FilterMembers | game.js:621-624 | an element is kept by a filter pass exactly when it was present and passes the test |
| Tables.PickIndex | game.js:196-197 | `Math.floor(r * n)` for a draw in [0, 1) is a valid index below `n`, the one whose unit slot contains `r * n` |
| Tables.PlanetTableShape | game.js:32-41 | every product costs a positive amount and rewards exactly five times its cost |
| Tables.FindLevel | game.js:627 | `find` returns an entry with the wanted level; it returns nothing exactly when no entry has that level |
| Tables.FindLevelFirst | game.js:627 | `find` returns the first entry with the wanted level, whatever entries follow it |
| Tables.LevelOf | game.js:627 | a level 1..5 selects its own row; any other level falls back to the first row; so every level earns at least 10 per hour and holds at least 100 |
| Tables.Capacity | game.js:627 | the capacity used by the tick is at least 100 for every level, known or not |
| Tables.NextLevel | game.js:1293 | the next level's row exists exactly for levels 0..4 and is the table row at index `level` |
| World.DefaultStateValid | game.js:64-73 | the default state satisfies the game invariant and starts with capacity 100 |
| Economy.FrameDelta | game.js:616 | the tick's step never exceeds 200 ms or the time actually elapsed, and equals the elapsed time when that is at most 200 |
| Economy.PruneBoosters | game.js:621-624 | a booster survives the expiry filter if and only if it was present and `now - startTime < duration` |
| Economy.PruneKeepsOrder | game.js:621-624 | filtering a concatenation is the concatenation of the filtered parts, so survivors keep their order |
| Economy.PruneIdempotent | game.js:621-624 | filtering again at the same time removes nothing more |
| Economy.PruneKeepsActive | game.js:621-624 | a list of boosters that are all still active passes the filter unchanged |
| Economy.Multiplier | game.js:632-635 | each booster scales income by at least 1, and by exactly 1 when it has no multiplier |
| Economy.ApplyOne | game.js:631-636 | one booster multiplies the running rate by its multiplier, and leaves it unchanged when it has none |
| Economy.MultiplierProduct | game.js:631-636 | the combined multiplier of any booster list is at least 1 |
| Economy.ApplyMultipliersIsProduct | game.js:628-636 | the tick's multiply-in-a-loop equals the base rate times the product of the multipliers |
| Economy.Earn | game.js:638 | income is added in full when the result stays within capacity, and energy lands on exactly the capacity when it would exceed it; with a non-negative rate and frame it never lowers energy within capacity and never makes energy negative |
| Economy.Accrue | game.js:619-638 | the tick keeps exactly the active boosters, earns at the level's base rate times their product for `dt` ms, caps at capacity, and changes nothing else; with `dt >= 0` it never makes energy negative and never lowers energy that is within capacity |
| Economy.RatePerSecond | game.js:627-636 | the tick's multiply-in-a-loop rate is the level's base rate times the product of the multipliers, so boosters never lower it below the base rate and it is always positive |
| Economy.ExpiredBoosterIgnored | game.js:621-636 | an expired booster has no effect on the tick |
| Economy.AccrueTimesIsEarnTimes | game.js:614-638 | without boosters, `n` ticks are `n` capped income steps at the level's base rate |
| Economy.EarnTimesLinear | game.js:638 | below capacity, income over `n` equal ticks adds up linearly |
| Economy.OneHourAtLevelOne | game.js:108 | a level-1 station at 20 energy earns exactly 10 in an hour of 200 ms frames |
| Economy.Upgrade | game.js:1348-1358 | the click handler's upgrade succeeds exactly when the level is below 5 and energy covers the next level's cost; then it deducts exactly that cost, raises the level by one and keeps a valid state valid; at level 5 or an unknown level nothing changes |
| Economy.Bonus | game.js:1369 | a booster's one-time bonus is never negative |
| Economy.Purchase | game.js:1366-1375 | the click handler's purchase succeeds exactly when energy covers the cost, and then sets energy to `energy - cost + bonus`, appends one booster started at `now` with the table's duration, and keeps a valid state valid |
| Economy.PressUpgrade | game.js:1331-1358 | the drawn upgrade button succeeds exactly when the level is below 5 and both the energy when the panel opened and the live energy cover the cost, and then does what `Upgrade` does; a button drawn disabled ignores the click |
| Economy.PressPurchase | game.js:1298-1308 | a drawn booster button succeeds exactly when both the energy when the panel opened and the live energy cover the cost, and then does what `Purchase` does; a button drawn disabled ignores the click |
| Economy.FreshPanelIsHandler | game.js:1298-1375 | with no tick between opening the panel and the click, the drawn buttons succeed exactly when their handlers do, with the same new state |
| Economy.LateEnergyStaysDisabled | game.js:1331-1358 | a panel opened at 20 energy keeps the upgrade button disabled once the tick has raised energy to 100, although the handler alone would upgrade |
| Economy.CreditCanExceedCapacity | game.js:1368-1369 | the free credit booster at full level-1 capacity leaves energy at 200, above the capacity of 100 |
| Planets.SpawnPlanet | game.js:195-214 | a spawned planet is idle with progress 0, at the given point, of the drawn kind, with cost and reward copied from the product table |
| Planets.HitsPlanetByDistance | game.js:549-569 | with `d` the click's distance from the planet's screen centre, a click hits the planet exactly when `d <= 40` or it lands on the explore button of an idle planet whose button is more than 50 px above the canvas bottom |
| Planets.PlanetAtFrom | game.js:547-571 | the scan from index `i` returns the first planet whose disc or explore button is hit, or none when no later planet is hit |
| Planets.RestartRefused | game.js:546-595 | starting exploration moves no planet, so a click on the disc of the planet just started still finds it first, and starting it again is refused as already exploring |
| Planets.PlanetAt | game.js:546-572 | the hit test returns the first hit planet, and returns none exactly when no planet is hit |
| Planets.StartExploration | game.js:575-595 | an explored or exploring planet, or too little energy, refuses with the matching error; otherwise energy drops by exactly the cost, that planet starts exploring at progress 0, and nothing else changes |
| Planets.Completes | game.js:659-663 | a planet completes in a tick exactly when it is exploring, is not yet explored, and its progress plus `dt * 0.01` reaches 100 |
| Planets.Advance | game.js:659-667 | an explored planet is untouched; a planet becomes explored in this tick exactly when it was exploring and its progress reaches 100, landing on exactly 100; until then it advances by exactly `dt * 0.01`; with `dt >= 0` a consistent planet stays consistent and its progress never decreases |
| Planets.UpdateExploration | game.js:657-676 | every planet advances independently; when no planet completes energy is unchanged; otherwise, with non-negative rewards, energy becomes `min(capacity, energy + sum of the completed rewards)` |
| Planets.CreditCompletions | game.js:663-671 | the reward loop leaves energy alone when nothing completes and caps it otherwise |
| Planets.ExplorationCredit | game.js:657-676 | the completions credit energy once each: the result is `min(capacity, energy + sum of completed rewards)` |
| Planets.ExplorationKeepsEnergy | game.js:657-676 | with consistent planets and non-negative energy and capacity, the exploration step never makes energy negative |
| Planets.ExploredIsFinal | game.js:659 | an explored planet is never advanced again and cannot complete again, so its reward is paid once |
| Planets.ExploredStaysExplored | game.js:659 | over any number of ticks an explored planet stays exactly as it is |
| Planets.ExplorationTiming | game.js:661-666 | over a sequence of ticks a planet is explored exactly when the total tick time times 0.01 brings its progress to 100; until then progress is the start plus that amount |
| Planets.TenSecondsToExplore | game.js:660-661 | from a fresh start, exploration completes exactly when 10 000 ms of tick time have passed |
| Planets.DepositScenario | game.js:585-593 | a deposit planet (cost 10) is refused at 5 energy and started at 20, leaving 10 |
| Fog.InitializeDiscoveredArea | game.js:135-151 | a map that already has areas is returned unchanged, and an empty map becomes exactly the revealed radius-150 home area at the origin |
| Fog.InitializeIdempotent | game.js:136 | seeding the home area twice is the same as seeding it once |
| Fog.CoversByDistance | game.js:158-161 | with `d` the distance of the world point from an area's centre, the area covers the point exactly when `d` is at most its radius |
| Fog.IsPointDiscovered | game.js:154-165 | the scan answers true exactly when some area covers the camera-shifted point |
| Fog.RevealArea | game.js:168-192 | exactly one area of radius 80 centred at the clicked world point is appended and the old ones are kept, so the clicked point becomes discovered; it has resources iff the draw is below 0.3; its offsets are 0 without resources and in [-30, 30) with them; a planet is appended iff the draw is below 0.15; nothing else changes |
| Fog.RevealKeepsDiscovered | game.js:168-192 | a reveal never hides a point that was already discovered |
| Fog.ClampToWorld | game.js:762-763 | the clamp lands in [-2000, 2000], is the identity inside it, and pins to the nearest bound outside it |
| Fog.DragCamera | game.js:758-763 | after a drag both camera coordinates lie in [-2000, 2000], and an in-bounds drag moves the camera by exactly minus the mouse delta |
| Fog.DragUndo | game.js:762-763 | within the bounds a drag followed by the opposite drag restores the camera |
| OxygenClock.Breathe | game.js:1095-1103 | one frame conserves time: the old accumulator plus `dt` equals the new accumulator plus 300 per unit of oxygen used, and the new accumulator is in [0, 300) |
| OxygenClock.BreatheFramesConserves | game.js:1095-1103 | over any sequence of frames the total time put in equals the remainder plus 300 per unit used, and the remainder stays in [0, 300) |
| OxygenClock.BreatheCountsIntervals | game.js:1097-1102 | a frame uses exactly `floor((acc + dt) / 300)` units of oxygen |
| OxygenClock.DepletionIgnoresFrameTiming | game.js:1095-1103 | from an empty accumulator the oxygen used is `floor(total time / 300)`, however the time is split into frames |
| OxygenClock.SameTimeSameOxygen | game.js:1095-1103 | two frame sequences of equal total time use the same oxygen |
| Minigame.Lane | game.js:895 | a spawn x position keeps its margin clear of both canvas edges whenever the canvas is wide enough |
| Minigame.SpawnAsteroid | game.js:885-902 | exactly one asteroid is appended at y = -30; it is small iff the first roll is below 0.6 and medium iff a second roll is below 0.85; its radius matches its size; its speed lies between 0.3 times and 1 times the size's base speed |
| Minigame.SpawnPickup | game.js:904-915 | exactly one pickup of the requested kind is appended at y = -20 with speed in [1, 2.5] |
| Minigame.SpawnBooster | game.js:917-930 | exactly one booster pickup of the drawn bank booster is appended with speed in [0.6, 1] |
| Minigame.MaybeSpawnCargo | game.js:954-968 | with the session flag set nothing happens and nothing is drawn; otherwise a cargo is appended and the flag set exactly when the roll is below 0.12 |
| Minigame.CargoOncePerSession | game.js:954-968 | one call adds at most one cargo, adds it exactly when the flag was clear and the roll below 0.12, and then the flag is set |
| Minigame.SpawnWave | game.js:1022-1024 | a wave adds an asteroid iff its roll is below 0.9, at most two pickups, keeps existing objects, and can only set the cargo flag |
| Minigame.SpawnWaveRolls | game.js:1022-1024 | after the asteroid's draws, a regular pickup is added exactly when its roll is below 0.4, it is oxygen exactly when the next draw is below 0.6 and energy otherwise, and the cargo flag ends set exactly when it was set or the following cargo roll is below 0.12 |
| Minigame.BoosterWave | game.js:1028-1032 | a booster spawns and the timer resets to 0 exactly when the timer reaches 30 000 ms with fewer than three boosters held; otherwise only the timer grows |
| Minigame.Steer | game.js:1035-1037 | the shuttle's x is at least 18 and, on a canvas at least 36 wide, at most width - 18; an in-bounds move is exactly 0.4 px/ms per held key; a move past an edge is clamped to that edge |
| Minigame.Drop | game.js:1040 | an object falls `vy` px per 16 ms, so `vy * dt / 16` px in `dt` ms, and never upwards at a non-negative speed over a non-negative frame |
| Minigame.FallAsteroids | game.js:1040-1044 | only the asteroids' heights change, each by exactly `vy * dt / 16`, and none rises over a non-negative frame when its speed is non-negative |
| Minigame.FallPickups | game.js:1046-1050 | only the pickups' heights change, each by exactly `vy * dt / 16`, none rises over a non-negative frame when its speed is non-negative, and every pickup keeps its kind |
| Minigame.FallSplits | game.js:1040-1050 | falling for two frames in a row leaves asteroids and pickups where falling once for the total time does, since the drop is linear in time |
| Minigame.HitsByDistance | game.js:1053-1057 | with `d` the asteroid's distance from the shuttle, it hits exactly when `d` is below its radius plus 12 |
| Minigame.Missed | game.js:1053-1062 | an asteroid remains after the collision pass exactly when it was present and does not hit the shuttle |
| Minigame.CollideAsteroids | game.js:1053-1062 | the backward removal pass keeps exactly the non-hitting asteroids in order, and oxygen drops by exactly 40 per asteroid removed |
| Minigame.Collect | game.js:1069-1089 | oxygen becomes `min(200, oxygen + 60)`; an energy crystal adds between 15 and 35; a booster is recorded only while fewer than three are held; cargo records a random bank booster, adds 80 energy and a mission, and leaves the held-booster count alone |
| Minigame.TouchesByDistance | game.js:1065-1069 | with `d` the pickup's distance from the shuttle, it is touched exactly when `d` is below 18 |
| Minigame.Untouched | game.js:1065-1092 | a pickup remains after the pickup pass exactly when it was present and is not within 18 of the shuttle |
| Minigame.CollidePickups | game.js:1065-1092 | the backward pickup pass keeps exactly the untouched pickups in order; it never lowers collected energy or missions, never forgets a found booster, and keeps oxygen at most 200, collected energy non-negative, and held boosters at most three and at most the number found |
| Minigame.CollidePickupsIsFold | game.js:1065-1092 | the haul the pass ends with is `Collect` applied to the kinds of exactly the touched pickups, one after the other, from the last of them to the first |
| Minigame.NothingTouchedKeepsHaul | game.js:1065-1092 | a pass that touches no pickup leaves oxygen, energy, boosters, missions and draws as they were |
| Flight.Start | game.js:871-883 | a new run is running from `now` with the shuttle centred 140 px above the bottom, 100 oxygen, nothing collected and every timer at zero, and it satisfies the run invariant |
| Flight.Ascend | game.js:1014-1017 | a frame adds `dt * 0.15 * (1 + 0.004 * distance)`, so at least `0.15 * dt` from a non-negative distance over a non-negative frame |
| Flight.AscentSpeedsUp | game.js:1014-1017 | over the same non-negative frame, a shuttle further up gains at least as much distance |
| Flight.AdvanceClocks | game.js:1010-1032 | elapsed time grows by `dt`; the spawn timer resets to 0 exactly when it passes 500 and otherwise grows by `dt`; the booster timer resets or grows the same way; the shuttle and the run's resources are untouched; it keeps the clock part of the run invariant when `dt >= 0` |
| Flight.SpawnPhase | game.js:1020-1025 | the spawn wave runs exactly when the timer is past 500, and then restarts the timer at 0; it keeps the existing asteroids and pickups in order and adds at most one asteroid and two pickups |
| Flight.AdvanceClocksSpawns | game.js:1019-1025 | over a frame the existing asteroids stay in order ahead of at most one new asteroid |
| Flight.AdvanceClocksAddsPickups | game.js:1019-1032 | over a frame the existing pickups stay in order ahead of at most three new ones: two from a spawn wave and one booster |
| Flight.AdvanceClocksQuiet | game.js:1019-1032 | without a due spawn timer no asteroid is added and the game state is untouched; a due booster timer adds a booster pickup last; with neither timer due the pickups and the draws are unchanged |
| Flight.BreatheRun | game.js:1095-1103 | oxygen drops by exactly `floor((acc + dt) / 300)`, the time put in equals the new accumulator plus 300 per unit used, and the accumulator stays in [0, 300) |
| Flight.Resolve | game.js:1035-1124 | the shuttle is steered; the fallen asteroids that miss it and the fallen pickups it does not touch remain; after the 40-per-hit oxygen penalty the touched pickups are collected from last to first, and this gives the new energy, boosters, draws and missions; oxygen then drops by one per whole 300 ms interval; the run stops exactly when oxygen is at most 0 or elapsed time passes 120 000 ms; with `dt >= 0` it keeps the resource part of the run invariant |
| Flight.OverLimits | game.js:1118 | a run is over when oxygen is at most 0 or more than 120 000 ms have elapsed |
| Flight.Step | game.js:1005-1124 | a frame is at most 40 ms; a stopped run only records the timestamp; a running run stops exactly when it runs out of oxygen or passes two minutes; the shuttle stays in the lane; the game state changes only in the cargo flag, which is never cleared, and the mission count, which never decreases |
| Flight.StepKeepsRunOk | game.js:1005-1124 | with time not running backwards every frame keeps the run invariant (spawn timer in [0, 500], accumulator in [0, 300), oxygen at most 200, at most three held boosters, shuttle in the lane, a running run within its limits), never lowers collected energy or found boosters, and keeps a valid game state valid |
| Game.Tick | game.js:614-649 | the tick keeps the active boosters, advances every planet by the capped step, ends with energy within capacity, and changes nothing else |
| Game.TickKeepsValid | game.js:614-676 | a tick with time not running backwards keeps the state valid: energy stays non-negative and every planet stays consistent |
| Game.TickKeepsEnergy | game.js:614-676 | a tick with time not running backwards never makes energy negative, whichever planets complete |
| Game.BackwardsFrameLowersEnergy | game.js:614-638 | a frame whose timestamp is 1 ms earlier than the previous one takes income away, so from 0 energy it leaves energy negative |
| Game.OnCanvasClick | game.js:681-698 | a click launches a flight exactly when no planet is hit, with the state `revealArea` leaves, so the clicked point is discovered; otherwise the first planet hit, the one the scan stops at, is refused exactly when it is explored, being explored or costs more than the energy, with `handlePlanetClick`'s reason, and otherwise starts exploring with the state `handlePlanetClick` leaves; a click never breaks a valid state |
| Game.SecondClickRefused | game.js:575-595 | right after a click starts a planet's exploration, a second click on that planet's disc is refused as already exploring |
| Game.FirstUpgradeNeedsHundred | game.js:1351-1353 | from the default state the upgrade is refused, and with 100 energy it leaves 0 energy at level 2 |
| Game.Activate | game.js:723-728 | a found booster becomes a booster of that kind started at `now` that lasts its table duration, active at that moment |
| Game.CompleteFlight | game.js:718-730 | energy becomes `energy + collected` when that is within capacity and exactly the capacity otherwise, which never lowers energy that was within capacity when the amount collected is non-negative; one booster per found booster is appended in order, of its kind, started at `now`, lasting its table duration and active then; nothing else changes, so a valid state stays valid |
| Game.FlightBoostersSurvivePrune | game.js:718-730 | the boosters a flight brings back all survive an expiry filter at the same time |

## Left out

- Rendering (`render`, `renderFog`, `renderPlanet`, `renderShip`, `renderPlanets`, `renderRoute`, the minigame drawing): immediate-mode drawing with no effect on state.
- Economy.Upgrade: models the click handler alone, which re-checks the live energy. A button drawn disabled when the panel opened never reaches it, even after the tick has raised energy. That gate is `Economy.PressUpgrade`.
- Economy.Purchase: models the click handler alone. The open-time gate of a booster button is `Economy.PressPurchase`.
- DOM and UI (`updateUI`, the minigame HUD, `updateBoosterUI`, the panel's text and layout, every `alert`): presentation only. The panel's `disabled` flags do change behaviour and are modelled by `Economy.PressUpgrade` and `Economy.PressPurchase`. The panel's `state.oxygen` is never defined.
- Persistence (`load`, `save`, `localStorage`): browser I/O.
- Event wiring, key and touch handlers, `requestAnimationFrame` and the nested `setTimeout` deferrals before a flight: browser scheduling. Input is a left/right flag pair and time is a parameter.
- `Math.random()`, `Date.now()` and `performance.now()`: passed in as parameters. The `now || performance.now()` fallback of the tick is not modelled; the tick always receives a timestamp.
- Cosmetic fields: planet names, colours and icons, asteroid and pickup rotation, pulse and glow, the sun and orbit-ship animation, the route preview, the shuttle's last position. The rotation draw of `spawnAsteroid` is still consumed from the stream, because it shifts later draws.
- The cargo booster's recorded `value` field: the merge never reads it.
- The unused `maxFlightTime` and `minRunMs` constants, and the unused `totalDistance` state field.
- The merge's booster start times: each found booster calls `Date.now()` separately; the model uses one wall-clock value for all of them.
- Concurrency between the station tick and a running flight: both run on the same animation loop, and the model treats each as its own transition on the state.
- Game.Tick: does not state the energy formula itself; it is stated by `Economy.Accrue` and `Planets.ExplorationCredit`, which it composes.
- Flight.Step: does not restate the oxygen and collision effects of a frame; those are stated by `Flight.Resolve`, which it composes.
- Canvas resizing during a flight: the game resizes the canvas whenever the window is resized (game.js:6-11), and spawning and steering read the live width. The model fixes the canvas width and height when the flight starts.
- Frames that run backwards: the station tick and the minigame frame both start from a `performance.now()` reading and then take `requestAnimationFrame` timestamps. The model assumes each timestamp is at least the previous one, and `Game.TickKeepsValid`, `Game.TickKeepsEnergy` and `Flight.StepKeepsRunOk` require it. A backwards frame has a negative step, and `Game.BackwardsFrameLowersEnergy` shows that this can leave energy negative.
- IEEE floating point: numbers are exact reals, and `Math.hypot` is replaced by exact squared-distance comparisons.

=== FILE: economy.dfy ===
/** The station economy: booster expiry and passive income in the frame
    tick, the level upgrade, and booster purchase. */
module Economy {
  import opened Tables
  import opened World

  /** The frame tick never advances by more than this many milliseconds. */
  const MaxTickDt: real := 200.0

  /** The tick's step: the time since the last frame, capped. */
  function FrameDelta(last: real, now: real): (dt: real)
    ensures dt <= MaxTickDt && dt <= now - last
    ensures now - last <= MaxTickDt ==> dt == now - last
    ensures now - last > MaxTickDt ==> dt == MaxTickDt
  {
    Min(MaxTickDt, now - last)
  }

  // ---------------------------------------------------------------------
  // Booster expiry

  predicate Active(b: Booster, now: int) {
    now - b.startTime < b.duration
  }

  /** The expiry test as a filter condition. */
  function ActiveAt(now: int): Booster -> bool {
    b => Active(b, now)
  }

  /** The boosters still active at wall-clock time `now`, in their original
      order: exactly the expired ones are dropped. */
  function PruneBoosters(bs: seq<Booster>, now: int): (r: seq<Booster>)
    ensures forall b :: b in r <==> b in bs && Active(b, now)
  {
    FilterMembers(bs, ActiveAt(now));
    Filter(bs, ActiveAt(now))
  }

  /** Pruning works element by element, so survivors keep their relative order. */
  lemma PruneKeepsOrder(a: seq<Booster>, b: seq<Booster>, now: int)
    ensures PruneBoosters(a + b, now) == PruneBoosters(a, now) + PruneBoosters(b, now)
  {
    FilterConcat(a, b, ActiveAt(now));
  }

  /** Pruning twice at the same time removes nothing more. */
  lemma PruneIdempotent(bs: seq<Booster>, now: int)
    ensures PruneBoosters(PruneBoosters(bs, now), now) == PruneBoosters(bs, now)
  {
    FilterIdempotent(bs, ActiveAt(now));
  }

  /** Boosters that are all active survive pruning untouched. */
  lemma PruneKeepsActive(bs: seq<Booster>, now: int)
    requires forall j :: 0 <= j < |bs| ==> Active(bs[j], now)
    ensures PruneBoosters(bs, now) == bs
  {
    FilterAll(bs, ActiveAt(now));
  }

  // ---------------------------------------------------------------------
  // Income

  /** The factor a booster applies to income; boosters without a multiplier apply none. */
  function Multiplier(b: Booster): (m: real)
    ensures m >= 1.0
    ensures BoosterData(b.kind).multiplier.None? ==> m == 1.0
  {
    match BoosterData(b.kind).multiplier
    case Some(m) => m
    case None => 1.0
  }

  /** The product of the multipliers of `bs`. */
  function MultiplierProduct(bs: seq<Booster>): (p: real)
    ensures p >= 1.0
  {
    if |bs| == 0 then 1.0
    else
      var rest := MultiplierProduct(bs[1..]);
      assert Multiplier(bs[0]) * rest >= 1.0 * rest;
      Multiplier(bs[0]) * rest
  }

  /** The tick's loop over the boosters: multiply the rate by each multiplier that exists. */
  function ApplyMultipliers(perSec: real, bs: seq<Booster>): real
    decreases |bs|
  {
    if |bs| == 0 then perSec
    else ApplyMultipliers(ApplyOne(perSec, bs[0]), bs[1..])
  }

  /** One pass of the loop: multiply by the booster's multiplier if it has one. */
  function ApplyOne(perSec: real, b: Booster): (next: real)
    ensures next == perSec * Multiplier(b)
  {
    match BoosterData(b.kind).multiplier
    case Some(m) => perSec * m
    case None => perSec
  }

  /** The loop computes the base rate times the product of the multipliers. */
  lemma {:induction false} ApplyMultipliersIsProduct(perSec: real, bs: seq<Booster>)
    ensures ApplyMultipliers(perSec, bs) == perSec * MultiplierProduct(bs)
    decreases |bs|
  {
    if |bs| > 0 {
      ApplyMultipliersIsProduct(ApplyOne(perSec, bs[0]), bs[1..]);
      MulAssoc(perSec, Multiplier(bs[0]), MultiplierProduct(bs[1..]));
    }
  }

  lemma ScaleUp(a: real, p: real)
    requires a >= 0.0 && p >= 1.0
    ensures a * p >= a
  {
    assert a * p - a == a * (p - 1.0);
  }

  lemma MulAssoc(a: real, b: real, c: real)
    ensures (a * b) * c == a * (b * c)
  {
  }

  /** The energy the station earns per second at `level` with `boosters`
      active, computed as the tick's loop does. It is the level's base rate
      times the product of the multipliers, so boosters never lower it and
      it is always positive. */
  function RatePerSecond(level: int, boosters: seq<Booster>): (rate: real)
    ensures rate == BaseRate(level) * MultiplierProduct(boosters)
    ensures rate >= BaseRate(level) > 0.0
  {
    ApplyMultipliersIsProduct(BaseRate(level), boosters);
    ScaleUp(BaseRate(level), MultiplierProduct(boosters));
    ApplyMultipliers(BaseRate(level), boosters)
  }

  /** The level's income per second before boosters. */
  function BaseRate(level: int): (r: real)
    ensures r > 0.0
  {
    LevelOf(level).energyPerHour / 3600.0
  }

  /** Energy after earning `rate` per second for `dt` milliseconds, capped at `cap`. */
  function Earn(energy: real, cap: real, rate: real, dt: real): (e: real)
    ensures e <= cap
    ensures energy + rate * (dt / 1000.0) <= cap ==> e == energy + rate * (dt / 1000.0)
    ensures energy + rate * (dt / 1000.0) > cap ==> e == cap
    ensures rate >= 0.0 && dt >= 0.0 && energy <= cap ==> e >= energy
    ensures rate >= 0.0 && dt >= 0.0 && energy >= 0.0 && cap >= 0.0 ==> e >= 0.0
  {
    var gain := rate * (dt / 1000.0);
    assert rate >= 0.0 && dt >= 0.0 ==> gain >= 0.0;
    Min(cap, energy + gain)
  }

  /** The economy part of the frame tick: drop expired boosters, earn income
      for `dt` milliseconds at the rate the surviving boosters allow, and cap
      energy at the level's capacity. Income is never negative, so with
      `dt >= 0` a tick loses energy only when energy was above capacity, and
      never drops it below zero. */
  function Accrue(s: GameState, dt: real, now: int): (r: GameState)
    ensures r.boosters == PruneBoosters(s.boosters, now)
    ensures r.energy == Earn(s.energy, Capacity(s.stationLevel), RatePerSecond(s.stationLevel, r.boosters), dt)
    ensures r.energy <= Capacity(s.stationLevel)
    ensures dt >= 0.0 && s.energy >= 0.0 ==> r.energy >= 0.0
    ensures dt >= 0.0 && s.energy <= Capacity(s.stationLevel) ==> r.energy >= s.energy
    ensures r == s.(energy := r.energy, boosters := r.boosters)
  {
    var bs := PruneBoosters(s.boosters, now);
    s.(boosters := bs, energy := Earn(s.energy, Capacity(s.stationLevel), RatePerSecond(s.stationLevel, bs), dt))
  }

  /** A booster that has expired contributes no multiplier on the next tick. */
  lemma ExpiredBoosterIgnored(bs: seq<Booster>, b: Booster, s: GameState, dt: real, now: int)
    requires !Active(b, now)
    ensures PruneBoosters(bs + [b], now) == PruneBoosters(bs, now)
    ensures Accrue(s.(boosters := bs + [b]), dt, now) == Accrue(s.(boosters := bs), dt, now)
  {
    FilterSnoc(bs, b, ActiveAt(now));
  }

  /** `n` ticks of `dt` milliseconds with no boosters: while the total stays
      under capacity, the income simply adds up. */
  function AccrueTimes(s: GameState, dt: real, now: int, n: nat): GameState
    decreases n
  {
    if n == 0 then s else AccrueTimes(Accrue(s, dt, now), dt, now, n - 1)
  }

  /** Without boosters, `n` ticks are `n` applications of `Earn` at the level's base rate. */
  lemma {:induction false} AccrueTimesIsEarnTimes(s: GameState, dt: real, now: int, n: nat)
    requires s.boosters == []
    ensures AccrueTimes(s, dt, now, n).energy
         == EarnTimes(s.energy, Capacity(s.stationLevel), RatePerSecond(s.stationLevel, []), dt, n)
    decreases n
  {
    if n > 0 {
      var s1 := Accrue(s, dt, now);
      assert s1.boosters == [] && s1.stationLevel == s.stationLevel;
      AccrueTimesIsEarnTimes(s1, dt, now, n - 1);
    }
  }

  function EarnTimes(energy: real, cap: real, rate: real, dt: real, n: nat): real
    decreases n
  {
    if n == 0 then energy else EarnTimes(Earn(energy, cap, rate, dt), cap, rate, dt, n - 1)
  }

  /** Below the cap, repeated earning is linear in the number of ticks: each
      tick adds the same increment `inc`. */
  lemma {:induction false} EarnTimesLinear(energy: real, cap: real, rate: real, dt: real, n: nat, inc: real)
    requires inc == rate * (dt / 1000.0) && inc >= 0.0
    requires energy + (n as real) * inc <= cap
    ensures EarnTimes(energy, cap, rate, dt, n) == energy + (n as real) * inc
    decreases n
  {
    if n > 0 {
      AddStep(energy, inc, n);
      var next := energy + inc;
      assert next <= cap;
      assert Earn(energy, cap, rate, dt) == next;
      assert next + ((n - 1) as real) * inc <= cap;
      EarnTimesLinear(next, cap, rate, dt, n - 1, inc);
      assert EarnTimes(energy, cap, rate, dt, n) == EarnTimes(next, cap, rate, dt, n - 1);
    }
  }

  lemma AddStep(e: real, inc: real, n: nat)
    requires n > 0 && inc >= 0.0
    ensures e + inc + ((n - 1) as real) * inc == e + (n as real) * inc
    ensures e + inc <= e + (n as real) * inc
  {
    var m := (n - 1) as real;
    assert (n as real) * inc == m * inc + inc;
    assert m * inc >= 0.0;
  }

  /** A level-1 station holding 20 energy earns 10 more in an hour of 200 ms frames. */
  lemma OneHourAtLevelOne(s: GameState, now: int)
    requires s.stationLevel == 1 && s.energy == 20.0 && s.boosters == []
    ensures AccrueTimes(s, 200.0, now, 18000).energy == 30.0
  {
    var rate := RatePerSecond(1, []);
    assert rate == 10.0 / 3600.0;
    AccrueTimesIsEarnTimes(s, 200.0, now, 18000);
    EarnTimesLinear(20.0, 100.0, rate, 200.0, 18000, 1.0 / 1800.0);
  }

  // ---------------------------------------------------------------------
  // Upgrade and purchase

  /** The station panel's upgrade button. The panel cannot be drawn for a
      level missing from the table, so no upgrade happens then. */
  function Upgrade(s: GameState): (r: Result<GameState>)
    ensures r.Ok? <==> 1 <= s.stationLevel < |StationLevels| && s.energy >= StationLevels[s.stationLevel].cost
    ensures r.Ok? ==> r.value == s.(energy := s.energy - StationLevels[s.stationLevel].cost, stationLevel := s.stationLevel + 1)
    ensures r.Ok? ==> r.value.energy >= 0.0
    ensures r.Ok? && Valid(s) ==> Valid(r.value)
    ensures s.stationLevel == |StationLevels| ==> r == Err(MaxLevelReached)
    ensures !(1 <= s.stationLevel <= |StationLevels|) ==> r == Err(UnknownLevel)
  {
    if FindLevel(StationLevels, s.stationLevel).None? then Err(UnknownLevel)
    else match NextLevel(s.stationLevel)
      case None => Err(MaxLevelReached)
      case Some(next) =>
        if s.energy >= next.cost && s.stationLevel < |StationLevels| then
          Ok(s.(energy := s.energy - next.cost, stationLevel := s.stationLevel + 1))
        else
          Err(InsufficientEnergy)
  }

  /** The one-time energy a booster grants on activation (0 when it has none). */
  function Bonus(k: BoosterKind): (b: real)
    ensures b >= 0.0
  {
    match BoosterData(k).bonus
    case Some(b) => b
    case None => 0.0
  }

  /** A booster button on the station panel, clicked at wall-clock `now`. The
      bonus is added without a cap: only the next tick pulls energy back
      under capacity. */
  function Purchase(s: GameState, k: BoosterKind, now: int): (r: Result<GameState>)
    ensures r.Ok? <==> 1 <= s.stationLevel <= |StationLevels| && s.energy >= BoosterData(k).cost
    ensures r.Ok? ==> r.value.energy == s.energy - BoosterData(k).cost + Bonus(k)
    ensures r.Ok? ==> r.value.energy >= 0.0
    ensures r.Ok? && Valid(s) ==> Valid(r.value)
    ensures r.Ok? ==> r.value.boosters == s.boosters + [Booster(k, now, BoosterData(k).duration)]
    ensures r.Ok? ==> r.value == s.(energy := r.value.energy, boosters := r.value.boosters)
    ensures r.Err? ==> r.error == (if 1 <= s.stationLevel <= |StationLevels| then InsufficientEnergy else UnknownLevel)
  {
    if FindLevel(StationLevels, s.stationLevel).None? then Err(UnknownLevel)
    else
      var spec := BoosterData(k);
      if s.energy >= spec.cost then
        var paid := s.energy - spec.cost;
        var energy := match spec.bonus case Some(b) => paid + b case None => paid;
        Ok(s.(energy := energy, boosters := s.boosters + [Booster(k, now, spec.duration)]))
      else
        Err(InsufficientEnergy)
  }

  /** The upgrade button as the panel draws it. `shown` is the energy when
      the panel opened: the button is drawn disabled if that did not cover
      the next level's cost, and then ignores clicks even after the tick has
      raised the live energy. An enabled button runs `Upgrade`, which checks
      the live energy again. */
  function PressUpgrade(shown: real, s: GameState): (r: Result<GameState>)
    ensures r.Ok? <==> 1 <= s.stationLevel < |StationLevels|
                       && shown >= StationLevels[s.stationLevel].cost
                       && s.energy >= StationLevels[s.stationLevel].cost
    ensures r.Ok? ==> r == Upgrade(s)
    ensures 1 <= s.stationLevel < |StationLevels| && shown < StationLevels[s.stationLevel].cost ==>
      r == Err(ButtonDisabled)
  {
    if 1 <= s.stationLevel < |StationLevels| && shown < StationLevels[s.stationLevel].cost then
      Err(ButtonDisabled)
    else
      Upgrade(s)
  }

  /** A booster button as the panel draws it: disabled when the energy at
      opening, `shown`, did not cover the booster's cost. An enabled button
      runs `Purchase`, which checks the live energy again. */
  function PressPurchase(shown: real, s: GameState, k: BoosterKind, now: int): (r: Result<GameState>)
    ensures r.Ok? <==> 1 <= s.stationLevel <= |StationLevels|
                       && shown >= BoosterData(k).cost && s.energy >= BoosterData(k).cost
    ensures r.Ok? ==> r == Purchase(s, k, now)
    ensures 1 <= s.stationLevel <= |StationLevels| && shown < BoosterData(k).cost ==>
      r == Err(ButtonDisabled)
  {
    if 1 <= s.stationLevel <= |StationLevels| && shown < BoosterData(k).cost then
      Err(ButtonDisabled)
    else
      Purchase(s, k, now)
  }

  /** Clicked with no tick since the panel opened, the drawn buttons succeed
      exactly when their handlers do, with the same new state; only the
      reason for a refusal can differ. */
  lemma FreshPanelIsHandler(s: GameState, k: BoosterKind, now: int)
    ensures PressUpgrade(s.energy, s).Ok? <==> Upgrade(s).Ok?
    ensures Upgrade(s).Ok? ==> PressUpgrade(s.energy, s) == Upgrade(s)
    ensures PressPurchase(s.energy, s, k, now).Ok? <==> Purchase(s, k, now).Ok?
    ensures Purchase(s, k, now).Ok? ==> PressPurchase(s.energy, s, k, now) == Purchase(s, k, now)
  {
  }

  /** A panel opened at 20 energy keeps its upgrade button disabled after
      the tick has brought the station to 100, although the handler alone
      would upgrade. */
  lemma LateEnergyStaysDisabled()
    ensures Upgrade(DefaultState.(energy := 100.0)).Ok?
    ensures PressUpgrade(DefaultState.energy, DefaultState.(energy := 100.0)) == Err(ButtonDisabled)
  {
  }

  /** The credit booster is free and can push energy above capacity until the next tick. */
  lemma CreditCanExceedCapacity()
    ensures Purchase(DefaultState.(energy := 100.0), CreditBooster, 0).Ok?
    ensures Purchase(DefaultState.(energy := 100.0), CreditBooster, 0).value.energy == 200.0
    ensures Capacity(DefaultState.stationLevel) == 100.0
  {
  }
}

=== FILE: flight.dfy ===
/** One flight of the minigame as a whole: starting a run, the per-frame step
    that ties spawning, movement, collisions and oxygen together, and the
    invariants a run keeps from frame to frame. */
module Flight {
  import opened Tables
  import opened World
  import opened Minigame
  import OxygenClock

  const MaxStepDt: real := 40.0
  const MaxFlightMs: real := 120000.0
  const StartOxygen: real := 100.0
  const BaseAscent: real := 0.15

  /** A fresh run on a `width` by `height` canvas, started at time `now`: the
      shuttle centred 140 px above the bottom edge, 100 oxygen, nothing
      collected, empty sky, every timer at zero; it satisfies the run
      invariant from the start. */
  function Start(width: real, height: real, now: real): (r: Run)
    ensures r.running && r.last == now
    ensures r.shuttleX == width / 2.0 && r.shuttleY == height - 140.0
    ensures r.oxygen == StartOxygen && r.oxyAcc == 0.0 && r.collectedEnergy == 0.0
    ensures r.asteroids == [] && r.pickups == [] && r.foundBoosters == [] && r.currentBoosters == 0
    ensures r.timeElapsed == 0.0 && r.spawnTimer == 0.0 && r.boosterSpawnTimer == 0.0 && r.distance == 0.0
    ensures RunOk(r)
  {
    Run(width, height, width / 2.0, height - 140.0, [], [], 0.0, 0.0, 0.0, 0.0,
        StartOxygen, 0.0, 0.0, [], 0, now, true, 0)
  }

  /** The climb: 0.15 px/ms, sped up by 120% for every 300 px already
      covered, that is by 0.4% per pixel. */
  function Ascend(distance: real, dt: real): (d: real)
    ensures d - distance == dt * BaseAscent * (1.0 + 0.004 * distance)
    ensures distance >= 0.0 && dt >= 0.0 ==> d >= distance + BaseAscent * dt
  {
    var speed := BaseAscent * (1.0 + distance / 300.0 * 1.2);
    assert distance >= 0.0 ==> speed >= BaseAscent;
    distance + dt * speed
  }

  /** The climb speeds up with the distance covered: over the same frame, a
      shuttle that is further up gains at least as much. */
  lemma AscentSpeedsUp(d1: real, d2: real, dt: real)
    requires d1 <= d2 && dt >= 0.0
    ensures Ascend(d1, dt) - d1 <= Ascend(d2, dt) - d2
  {
    var k, gap := dt * BaseAscent * 0.004, d2 - d1;
    MulNonNegative(k, gap);
    assert Ascend(d2, dt) - d2 - (Ascend(d1, dt) - d1) == k * gap;
  }

  /** A frame's effect on the run and on the persisted game state: the
      minigame sets the session cargo flag and counts cargo missions
      directly in the game state. */
  datatype Frame = Frame(run: Run, state: GameState)

  /** The flight is over: out of oxygen, or past two minutes. */
  predicate OverLimits(oxygen: real, timeElapsed: real) {
    oxygen <= 0.0 || timeElapsed > MaxFlightMs
  }

  /** The spawn timer has built up more than 500 ms this frame. */
  predicate SpawnDue(run: Run, dt: real) {
    run.spawnTimer + dt > SpawnInterval
  }

  /** The booster timer has reached 30 s with fewer than three boosters held. */
  predicate BoosterDue(run: Run, dt: real) {
    run.boosterSpawnTimer + dt >= BoosterInterval && run.currentBoosters < MaxBoosters
  }

  /** The first half of a frame: the clocks advance by `dt`, the distance
      grows, the spawn wave fires (and the spawn timer restarts) once more
      than 500 ms have built up, and the booster timer runs. The shuttle and
      the run's resources are untouched. */
  function AdvanceClocks(run: Run, gs: GameState, dt: real, rand: Stream): (r: Frame)
    requires UnitStream(rand)
    ensures r.run.timeElapsed == run.timeElapsed + dt
    ensures SpawnDue(run, dt) ==> r.run.spawnTimer == 0.0
    ensures !SpawnDue(run, dt) ==> r.run.spawnTimer == run.spawnTimer + dt
    ensures r.run.distance == Ascend(run.distance, dt)
    ensures BoosterDue(run, dt) ==> r.run.boosterSpawnTimer == 0.0
    ensures !BoosterDue(run, dt) ==> r.run.boosterSpawnTimer == run.boosterSpawnTimer + dt
    ensures r.run == run.(timeElapsed := r.run.timeElapsed, spawnTimer := r.run.spawnTimer,
                          distance := r.run.distance, boosterSpawnTimer := r.run.boosterSpawnTimer,
                          asteroids := r.run.asteroids, pickups := r.run.pickups, draws := r.run.draws)
    ensures |r.run.asteroids| <= |run.asteroids| + 1
    ensures r.state == gs.(sessionCargoSpawned := r.state.sessionCargoSpawned)
    ensures gs.sessionCargoSpawned ==> r.state.sessionCargoSpawned
    ensures dt >= 0.0 && ClocksOk(run) ==> ClocksOk(r.run)
    ensures ResourcesOk(run) ==> ResourcesOk(r.run)
  {
    var r0 := run.(timeElapsed := run.timeElapsed + dt, spawnTimer := run.spawnTimer + dt,
                   distance := Ascend(run.distance, dt));
    var w := SpawnPhase(r0, gs, rand);
    Frame(BoosterWave(w.0, dt, rand), w.1)
  }

  /** What a frame's clocks add to the sky: existing asteroids and pickups
      stay, in order, ahead of at most one new asteroid and three new
      pickups. */
  lemma AdvanceClocksSpawns(run: Run, gs: GameState, dt: real, rand: Stream)
    requires UnitStream(rand)
    ensures var r := AdvanceClocks(run, gs, dt, rand);
      && |run.asteroids| <= |r.run.asteroids| <= |run.asteroids| + 1
      && r.run.asteroids[..|run.asteroids|] == run.asteroids
  {
    var r0 := run.(timeElapsed := run.timeElapsed + dt, spawnTimer := run.spawnTimer + dt,
                   distance := Ascend(run.distance, dt));
    var w := SpawnPhase(r0, gs, rand);
    assert AdvanceClocks(run, gs, dt, rand) == Frame(BoosterWave(w.0, dt, rand), w.1);
  }

  /** Pickups are only ever appended: up to two from a spawn wave and one booster. */
  lemma AdvanceClocksAddsPickups(run: Run, gs: GameState, dt: real, rand: Stream)
    requires UnitStream(rand)
    ensures var r := AdvanceClocks(run, gs, dt, rand);
      && |run.pickups| <= |r.run.pickups| <= |run.pickups| + 3
      && r.run.pickups[..|run.pickups|] == run.pickups
  {
    var r0 := run.(timeElapsed := run.timeElapsed + dt, spawnTimer := run.spawnTimer + dt,
                   distance := Ascend(run.distance, dt));
    var w := SpawnPhase(r0, gs, rand);
    var b := BoosterWave(w.0, dt, rand);
    assert AdvanceClocks(run, gs, dt, rand) == Frame(b, w.1);
    assert |b.pickups| <= |w.0.pickups| + 1;
    Tables.PrefixChain(run.pickups, w.0.pickups, b.pickups);
  }

  /** Which timers spawn: a due booster timer adds a booster pickup last,
      and a frame in which neither timer is due adds nothing, draws nothing
      and leaves the game state alone. */
  lemma AdvanceClocksQuiet(run: Run, gs: GameState, dt: real, rand: Stream)
    requires UnitStream(rand)
    ensures var r := AdvanceClocks(run, gs, dt, rand);
      && (!SpawnDue(run, dt) ==> r.run.asteroids == run.asteroids && r.state == gs)
      && (BoosterDue(run, dt) ==>
            |r.run.pickups| > |run.pickups| && r.run.pickups[|r.run.pickups| - 1].kind.BoosterPickup?)
      && (!SpawnDue(run, dt) && !BoosterDue(run, dt) ==>
            r.run.pickups == run.pickups && r.run.draws == run.draws)
  {
    var r0 := run.(timeElapsed := run.timeElapsed + dt, spawnTimer := run.spawnTimer + dt,
                   distance := Ascend(run.distance, dt));
    var w := SpawnPhase(r0, gs, rand);
    var b := BoosterWave(w.0, dt, rand);
    assert AdvanceClocks(run, gs, dt, rand) == Frame(b, w.1);
    assert SpawnDue(run, dt) <==> r0.spawnTimer > SpawnInterval;
    assert BoosterDue(run, dt) <==>
      w.0.boosterSpawnTimer + dt >= BoosterInterval && w.0.currentBoosters < MaxBoosters;
    assert |b.pickups| >= |w.0.pickups| >= |run.pickups|;
  }

  /** The spawn wave, run once the spawn timer (with this frame's time
      already added) is past 500 ms; the timer then restarts at zero. */
  function SpawnPhase(run: Run, gs: GameState, rand: Stream): (w: (Run, GameState))
    requires UnitStream(rand)
    ensures run.spawnTimer <= SpawnInterval ==> w == (run, gs)
    ensures run.spawnTimer > SpawnInterval ==> w.0.spawnTimer == 0.0
    ensures w.0 == run.(spawnTimer := w.0.spawnTimer, asteroids := w.0.asteroids, pickups := w.0.pickups, draws := w.0.draws)
    ensures |run.asteroids| <= |w.0.asteroids| <= |run.asteroids| + 1
    ensures w.0.asteroids[..|run.asteroids|] == run.asteroids
    ensures |run.pickups| <= |w.0.pickups| <= |run.pickups| + 2
    ensures w.0.pickups[..|run.pickups|] == run.pickups
    ensures w.1 == gs.(sessionCargoSpawned := w.1.sessionCargoSpawned)
    ensures gs.sessionCargoSpawned ==> w.1.sessionCargoSpawned
  {
    if run.spawnTimer > SpawnInterval then SpawnWave(run.(spawnTimer := 0.0), gs, rand) else (run, gs)
  }

  /** The oxygen clock applied to a run: oxygen drops by one per whole 300 ms
      interval the accumulator takes out, so the time put in equals the time
      left in the accumulator plus 300 ms per unit of oxygen used. */
  function BreatheRun(run: Run, dt: real): (r: Run)
    ensures run.oxyAcc + dt == r.oxyAcc + OxygenClock.OxyInterval * (run.oxygen - r.oxygen)
    ensures 0.0 <= run.oxyAcc && 0.0 <= dt ==>
      && 0.0 <= r.oxyAcc < OxygenClock.OxyInterval
      && run.oxygen - r.oxygen == ((run.oxyAcc + dt) / OxygenClock.OxyInterval).Floor as real
    ensures r.oxygen <= run.oxygen
    ensures r == run.(oxygen := r.oxygen, oxyAcc := r.oxyAcc)
  {
    var breath := OxygenClock.Breathe(run.oxyAcc, dt);
    OxygenClock.BreatheCountsIntervals(run.oxyAcc, dt);
    run.(oxygen := run.oxygen - (breath.1 as real), oxyAcc := breath.0)
  }

  /** The second half of a frame: the shuttle steers, everything falls,
      asteroids and then pickups are checked against the shuttle, oxygen is
      breathed, and the run stops once it is over its limits. `missions` is
      the game state's mission count, which cargo raises. */
  function Resolve(run: Run, missions: int, dt: real, c: Controls, rand: Stream): (r: (Run, int))
    requires UnitStream(rand)
    ensures r.0.shuttleX == Steer(run.shuttleX, run.width, c, dt)
    ensures r.0.running <==> !OverLimits(r.0.oxygen, run.timeElapsed)
    ensures r.0 == run.(shuttleX := r.0.shuttleX, asteroids := r.0.asteroids, pickups := r.0.pickups,
                        oxygen := r.0.oxygen, oxyAcc := r.0.oxyAcc, collectedEnergy := r.0.collectedEnergy,
                        foundBoosters := r.0.foundBoosters, currentBoosters := r.0.currentBoosters,
                        draws := r.0.draws, running := r.0.running)
    ensures |r.0.asteroids| <= |run.asteroids|
    ensures 0.0 <= run.oxyAcc && 0.0 <= dt ==> 0.0 <= r.0.oxyAcc < OxygenClock.OxyInterval
    ensures 0.0 <= dt && ResourcesOk(run) ==> ResourcesOk(r.0)
    ensures r.0.collectedEnergy >= run.collectedEnergy
    ensures run.foundBoosters <= r.0.foundBoosters
    ensures r.1 >= missions
    ensures r.0.asteroids == Missed(FallAsteroids(run.asteroids, dt), r.0.shuttleX, run.shuttleY)
    ensures r.0.pickups == Untouched(FallPickups(run.pickups, dt), r.0.shuttleX, run.shuttleY)
    ensures var hit := CollideAsteroids(FallAsteroids(run.asteroids, dt), r.0.shuttleX, run.shuttleY, run.oxygen);
      var touched := Filter(FallPickups(run.pickups, dt), TouchedBy(r.0.shuttleX, run.shuttleY));
      var h := CollectAll(Reverse(Kinds(touched)),
                          Haul(hit.1, run.collectedEnergy, run.foundBoosters, run.currentBoosters, missions, run.draws), rand);
      && r.0.collectedEnergy == h.collectedEnergy && r.0.foundBoosters == h.found
      && r.0.currentBoosters == h.currentBoosters && r.0.draws == h.draws && r.1 == h.missions
      && r.0.oxygen == h.oxygen - (OxygenClock.Breathe(run.oxyAcc, dt).1 as real)
      && r.0.oxyAcc == OxygenClock.Breathe(run.oxyAcc, dt).0
  {
    var sx := Steer(run.shuttleX, run.width, c, dt);
    var hit := CollideAsteroids(FallAsteroids(run.asteroids, dt), sx, run.shuttleY, run.oxygen);
    var h0 := Haul(hit.1, run.collectedEnergy, run.foundBoosters, run.currentBoosters, missions, run.draws);
    var got := CollidePickups(FallPickups(run.pickups, dt), sx, run.shuttleY, h0, rand);
    CollidePickupsIsFold(FallPickups(run.pickups, dt), sx, run.shuttleY, h0, rand);
    var h := got.1;
    var collided := run.(shuttleX := sx, asteroids := hit.0, pickups := got.0,
                         oxygen := h.oxygen, collectedEnergy := h.collectedEnergy,
                         foundBoosters := h.found, currentBoosters := h.currentBoosters, draws := h.draws);
    var breathed := BreatheRun(collided, dt);
    (breathed.(running := !OverLimits(breathed.oxygen, run.timeElapsed)), h.missions)
  }

  /** One animation frame at time `now`. The frame length is capped at
      40 ms; a stopped run only records the timestamp. Completed missions
      only grow. */
  function Step(run: Run, gs: GameState, now: real, c: Controls, rand: Stream): (r: Frame)
    requires UnitStream(rand)
    ensures r.run.last == now
    ensures !run.running ==> r == Frame(run.(last := now), gs)
    ensures run.running ==>
      && r.run.timeElapsed - run.timeElapsed <= MaxStepDt
      && (now - run.last <= MaxStepDt ==> r.run.timeElapsed == run.timeElapsed + (now - run.last))
      && (r.run.running <==> !OverLimits(r.run.oxygen, r.run.timeElapsed))
      && r.run.shuttleX >= ShuttleMargin
      && (run.width >= 2.0 * ShuttleMargin ==> r.run.shuttleX <= run.width - ShuttleMargin)
      && |r.run.asteroids| <= |run.asteroids| + 1
    ensures r.run.width == run.width && r.run.height == run.height && r.run.shuttleY == run.shuttleY
    ensures r.state == gs.(sessionCargoSpawned := r.state.sessionCargoSpawned, missionsCompleted := r.state.missionsCompleted)
    ensures gs.sessionCargoSpawned ==> r.state.sessionCargoSpawned
    ensures r.state.missionsCompleted >= gs.missionsCompleted
  {
    var dt := Min(MaxStepDt, now - run.last);
    if !run.running then Frame(run.(last := now), gs)
    else
      var a := AdvanceClocks(run.(last := now), gs, dt, rand);
      var b := Resolve(a.run, a.state.missionsCompleted, dt, c, rand);
      Frame(b.0, a.state.(missionsCompleted := b.1))
  }

  /** Every frame keeps `RunOk` as long as time does not run backwards;
      collected energy and found boosters only grow, and a valid game state
      stays valid. */
  lemma StepKeepsRunOk(run: Run, gs: GameState, now: real, c: Controls, rand: Stream)
    requires UnitStream(rand) && now >= run.last
    ensures var r := Step(run, gs, now, c, rand);
      && (RunOk(run) ==> RunOk(r.run))
      && r.run.collectedEnergy >= run.collectedEnergy
      && run.foundBoosters <= r.run.foundBoosters
      && (Valid(gs) ==> Valid(r.state))
  {
  }

  /** The clock part of the run invariant: the spawn timer never passes
      500 ms, and the other timers and the distance are never negative. */
  predicate ClocksOk(run: Run) {
    && 0.0 <= run.spawnTimer <= SpawnInterval
    && run.boosterSpawnTimer >= 0.0
    && run.timeElapsed >= 0.0
    && run.distance >= 0.0
  }

  /** The resource part of the run invariant: the oxygen accumulator holds
      less than one interval, oxygen never exceeds 200, collected energy is
      never negative, at most three boosters are held and never more than
      were found, and the shuttle stays 18 px inside a canvas wide enough
      for it. */
  predicate ResourcesOk(run: Run) {
    && 0.0 <= run.oxyAcc < OxygenClock.OxyInterval
    && run.oxygen <= OxygenCap
    && run.collectedEnergy >= 0.0
    && 0 <= run.currentBoosters <= MaxBoosters
    && run.currentBoosters <= |run.foundBoosters|
    && (run.width >= 2.0 * ShuttleMargin ==> ShuttleMargin <= run.shuttleX <= run.width - ShuttleMargin)
  }

  /** What holds of a run between frames: both parts above, and a run still
      going has oxygen left and is within two minutes. */
  predicate RunOk(run: Run) {
    ClocksOk(run) && ResourcesOk(run) && (run.running ==> !OverLimits(run.oxygen, run.timeElapsed))
  }
}

=== FILE: fog.dfy ===
/** The fog-of-war map: revealed circles in world coordinates, containment
    queries, new reveals, and the camera that maps screen to world. */
module Fog {
  import opened Tables
  import opened World
  import Planets

  const FogRadius: real := 80.0
  const HomeRadius: real := 150.0
  const WorldSize: real := 2000.0
  const ResourceChance: real := 0.3
  const EnergyResourceChance: real := 0.7

  /** The home area around the station at the world origin. */
  const HomeArea: Area := Area(0.0, 0.0, HomeRadius, true, EnergyResource, 30.0, -20.0)

  /** Seeds the home area on first run; a map that already has areas is left alone. */
  function InitializeDiscoveredArea(areas: seq<Area>): (r: seq<Area>)
    ensures |r| > 0
    ensures |areas| > 0 ==> r == areas
    ensures |areas| == 0 ==> r == [HomeArea]
  {
    if |areas| > 0 then areas else areas + [HomeArea]
  }

  lemma InitializeIdempotent(areas: seq<Area>)
    ensures InitializeDiscoveredArea(InitializeDiscoveredArea(areas)) == InitializeDiscoveredArea(areas)
  {
  }

  /** The world point lies within the area's circle. With a non-negative
      radius, comparing squared distances is the same as `hypot(dx, dy) <= radius`. */
  predicate Covers(a: Area, wx: real, wy: real) {
    var dx := wx - a.x;
    var dy := wy - a.y;
    a.radius >= 0.0 && dx * dx + dy * dy <= a.radius * a.radius
  }

  /** With `d` the distance from the area's centre, the point is covered
      exactly when `d` is at most the radius. */
  lemma CoversByDistance(a: Area, wx: real, wy: real, d: real)
    requires d >= 0.0 && d * d == (wx - a.x) * (wx - a.x) + (wy - a.y) * (wy - a.y)
    ensures Covers(a, wx, wy) <==> d <= a.radius
  {
    SquareCompare(d, a.radius);
  }

  /** The screen point `(x, y)` under `cam` lies in some revealed area. */
  predicate Discovered(areas: seq<Area>, cam: Camera, x: real, y: real) {
    exists i :: 0 <= i < |areas| && Covers(areas[i], x + cam.x, y + cam.y)
  }

  /** The containment query: scan the areas and stop at the first that covers the point. */
  method IsPointDiscovered(areas: seq<Area>, cam: Camera, x: real, y: real) returns (found: bool)
    ensures found <==> Discovered(areas, cam, x, y)
  {
    var wx := x + cam.x;
    var wy := y + cam.y;
    var i := 0;
    while i < |areas|
      invariant 0 <= i <= |areas|
      invariant forall j :: 0 <= j < i ==> !Covers(areas[j], wx, wy)
    {
      if Covers(areas[i], wx, wy) {
        return true;
      }
      i := i + 1;
    }
    return false;
  }

  /** The `Math.random()` values one reveal may use, in the order they are
      drawn (the offsets only when the area has resources, the planet draws
      only when a planet spawns), plus the wall clock for the planet's id. */
  datatype RevealDraws = RevealDraws(
    resource: real, kind: real, offsetX: real, offsetY: real,
    planet: real, planetKind: real, planetId: real, clock: int)

  predicate DrawsOk(d: RevealDraws) {
    Unit(d.resource) && Unit(d.kind) && Unit(d.offsetX) && Unit(d.offsetY)
    && Unit(d.planet) && Unit(d.planetKind) && Unit(d.planetId)
  }

  /** A resource offset: uniform in [-30, 30) when the area has resources, else 0. */
  function Offset(hasResources: bool, r: real): real {
    if hasResources then (r - 0.5) * (FogRadius - 20.0) else 0.0
  }

  /** Reveals the circle at the clicked screen point and, with probability
      0.15, spawns a planet at its centre. */
  function RevealArea(s: GameState, cam: Camera, x: real, y: real, d: RevealDraws): (r: GameState)
    requires DrawsOk(d)
    ensures |r.discoveredAreas| == |s.discoveredAreas| + 1
    ensures r.discoveredAreas[..|s.discoveredAreas|] == s.discoveredAreas
    ensures var a := r.discoveredAreas[|s.discoveredAreas|];
      && a.x == x + cam.x && a.y == y + cam.y && a.radius == FogRadius
      && (a.hasResources <==> d.resource < ResourceChance)
      && (a.resourceType == EnergyResource <==> d.kind < EnergyResourceChance)
      && (!a.hasResources ==> a.offsetX == 0.0 && a.offsetY == 0.0)
      && -30.0 <= a.offsetX < 30.0 && -30.0 <= a.offsetY < 30.0
    ensures d.planet < Planets.SpawnChance ==>
      r.planets == s.planets + [Planets.SpawnPlanet(x + cam.x, y + cam.y, d.planetKind, (d.clock as real) + d.planetId)]
    ensures d.planet >= Planets.SpawnChance ==> r.planets == s.planets
    ensures r == s.(discoveredAreas := r.discoveredAreas, planets := r.planets)
    ensures Discovered(r.discoveredAreas, cam, x, y)
  {
    var wx := x + cam.x;
    var wy := y + cam.y;
    var hasResources := d.resource < ResourceChance;
    var kind := if d.kind < EnergyResourceChance then EnergyResource else OxygenResource;
    var area := Area(wx, wy, FogRadius, hasResources, kind, Offset(hasResources, d.offsetX), Offset(hasResources, d.offsetY));
    var areas := s.discoveredAreas + [area];
    var planets :=
      if d.planet < Planets.SpawnChance then
        s.planets + [Planets.SpawnPlanet(wx, wy, d.planetKind, (d.clock as real) + d.planetId)]
      else s.planets;
    s.(discoveredAreas := areas, planets := planets)
  }

  /** Revealing never hides anything that was already discovered. */
  lemma RevealKeepsDiscovered(s: GameState, cam: Camera, x: real, y: real, d: RevealDraws, px: real, py: real)
    requires DrawsOk(d)
    requires Discovered(s.discoveredAreas, cam, px, py)
    ensures Discovered(RevealArea(s, cam, x, y, d).discoveredAreas, cam, px, py)
  {
    var areas := RevealArea(s, cam, x, y, d).discoveredAreas;
    var i :| 0 <= i < |s.discoveredAreas| && Covers(s.discoveredAreas[i], px + cam.x, py + cam.y);
    assert areas[i] == s.discoveredAreas[i];
  }

  /** The camera stays within the world bounds. */
  function ClampToWorld(v: real): (c: real)
    ensures -WorldSize <= c <= WorldSize
    ensures -WorldSize <= v <= WorldSize ==> c == v
    ensures v < -WorldSize ==> c == -WorldSize
    ensures v > WorldSize ==> c == WorldSize
  {
    Max(-WorldSize, Min(WorldSize, v))
  }

  /** A drag by `(dx, dy)` screen pixels moves the camera the other way, clamped. */
  function DragCamera(cam: Camera, dx: real, dy: real): (c: Camera)
    ensures -WorldSize <= c.x <= WorldSize && -WorldSize <= c.y <= WorldSize
    ensures -WorldSize <= cam.x - dx <= WorldSize ==> c.x == cam.x - dx
    ensures -WorldSize <= cam.y - dy <= WorldSize ==> c.y == cam.y - dy
  {
    Camera(ClampToWorld(cam.x - dx), ClampToWorld(cam.y - dy))
  }

  /** Within bounds, a drag followed by the opposite drag restores the camera. */
  lemma DragUndo(cam: Camera, dx: real, dy: real)
    requires -WorldSize <= cam.x <= WorldSize && -WorldSize <= cam.y <= WorldSize
    requires -WorldSize <= cam.x - dx <= WorldSize && -WorldSize <= cam.y - dy <= WorldSize
    ensures DragCamera(DragCamera(cam, dx, dy), -dx, -dy) == cam
  {
  }
}

=== FILE: game.dfy ===
/** The game's top-level transitions on the persisted state: the station
    frame tick, a click on the map, and folding a finished flight back into
    the station. The panel buttons are in `Economy` and the minigame frame
    is `Flight.Step`. A click always keeps `Valid`; a tick keeps it when the
    frame clock does not run backwards; the merge keeps it when the flight
    collected no negative energy. */
module Game {
  import opened Tables
  import opened World
  import Economy
  import Planets
  import Fog

  // ---------------------------------------------------------------------
  // Station tick

  /** One station frame from `lastTick` to `now` (both from the frame clock),
      with `wallNow` the wall-clock time used for booster expiry: income, then
      exploration progress with its rewards. */
  function Tick(s: GameState, lastTick: real, now: real, wallNow: int): (r: GameState)
    ensures r.boosters == Economy.PruneBoosters(s.boosters, wallNow)
    ensures |r.planets| == |s.planets|
    ensures forall i :: 0 <= i < |s.planets| ==>
      r.planets[i] == Planets.Advance(s.planets[i], Economy.FrameDelta(lastTick, now))
    ensures r.energy <= Capacity(s.stationLevel)
    ensures r == s.(energy := r.energy, boosters := r.boosters, planets := r.planets)
  {
    var dt := Economy.FrameDelta(lastTick, now);
    var a := Economy.Accrue(s, dt, wallNow);
    var u := Planets.UpdateExploration(a.planets, a.energy, Capacity(a.stationLevel), dt);
    assert u.1 <= Capacity(s.stationLevel) by {
      if !Planets.AnyCompletes(a.planets, dt) {
        assert u.1 == a.energy;
      }
    }
    a.(planets := u.0, energy := u.1)
  }

  /** With the frame clock not running backwards, a tick keeps the state valid. */
  lemma TickKeepsValid(s: GameState, lastTick: real, now: real, wallNow: int)
    requires Valid(s) && now >= lastTick
    ensures Valid(Tick(s, lastTick, now, wallNow))
  {
    var dt := Economy.FrameDelta(lastTick, now);
    var r := Tick(s, lastTick, now, wallNow);
    TickKeepsEnergy(s, lastTick, now, wallNow);
    forall i | 0 <= i < |r.planets|
      ensures PlanetOk(r.planets[i])
    {
      assert r.planets[i] == Planets.Advance(s.planets[i], dt);
    }
  }

  /** A tick never makes energy negative: income is positive, and each
      completion's reward is positive. */
  lemma TickKeepsEnergy(s: GameState, lastTick: real, now: real, wallNow: int)
    requires Valid(s) && now >= lastTick
    ensures Tick(s, lastTick, now, wallNow).energy >= 0.0
  {
    var dt := Economy.FrameDelta(lastTick, now);
    var a := Economy.Accrue(s, dt, wallNow);
    assert a.planets == s.planets && a.energy >= 0.0;
    Planets.ExplorationKeepsEnergy(a.planets, a.energy, Capacity(a.stationLevel), dt);
    assert Tick(s, lastTick, now, wallNow).energy
        == Planets.UpdateExploration(a.planets, a.energy, Capacity(a.stationLevel), dt).1;
  }

  /** The tick trusts its frame clock: a frame whose timestamp is earlier
      than the previous one has a negative step, which takes income away,
      and from an empty store that leaves energy negative. */
  lemma BackwardsFrameLowersEnergy()
    ensures Tick(DefaultState.(energy := 0.0), 10.0, 9.0, 0).energy < 0.0
  {
    var s := DefaultState.(energy := 0.0);
    var rate := Economy.RatePerSecond(s.stationLevel, []);
    assert Economy.FrameDelta(10.0, 9.0) == -1.0;
    assert Economy.PruneBoosters(s.boosters, 0) == [];
    assert rate > 0.0;
    assert rate * (-1.0 / 1000.0) < 0.0;
    assert Economy.Accrue(s, -1.0, 0).energy < 0.0;
  }

  // ---------------------------------------------------------------------
  // Map click

  /** What a click on the map leads to: exploration of a planet starts, a
      planet refuses it (the state is unchanged), or a new area is revealed
      and a flight is launched. */
  datatype ClickOutcome =
    | Exploring(state: GameState, planet: nat)
    | Refused(error: GameError)
    | Launched(state: GameState)

  /** The canvas click handler: a hit on a planet or its button goes to that
      planet; anywhere else reveals the area under the click and launches a
      flight. */
  function OnCanvasClick(s: GameState, cam: Camera, x: real, y: real, canvasHeight: real, d: Fog.RevealDraws): (r: ClickOutcome)
    requires Fog.DrawsOk(d)
    ensures r.Launched? <==> Planets.PlanetAt(s.planets, cam, x, y, canvasHeight).None?
    ensures r.Launched? ==> Fog.Discovered(r.state.discoveredAreas, cam, x, y)
    ensures r.Launched? ==> |r.state.discoveredAreas| == |s.discoveredAreas| + 1 && r.state.energy == s.energy
    ensures r.Exploring? || r.Refused? ==> Planets.PlanetAt(s.planets, cam, x, y, canvasHeight).Some?
    ensures r.Exploring? ==> Planets.PlanetAt(s.planets, cam, x, y, canvasHeight) == Some(r.planet)
    ensures r.Exploring? ==>
      && r.planet < |s.planets|
      && Planets.HitsPlanet(s.planets[r.planet], cam, x, y, canvasHeight)
      && r.state.energy == s.energy - s.planets[r.planet].energyCost
      && |r.state.planets| == |s.planets|
      && r.state.planets[r.planet].isExploring
      && r.state.discoveredAreas == s.discoveredAreas
    ensures r.Refused? ==> r.error in {AlreadyExplored, AlreadyExploring, InsufficientEnergy}
    ensures r.Launched? ==> r.state == Fog.RevealArea(s, cam, x, y, d)
    ensures var hit := Planets.PlanetAt(s.planets, cam, x, y, canvasHeight);
      hit.Some? ==>
        && (r.Refused? <==> s.planets[hit.value].isExplored || s.planets[hit.value].isExploring
                            || s.energy < s.planets[hit.value].energyCost)
        && (r.Exploring? ==> Planets.StartExploration(s, hit.value) == Ok(r.state))
        && (r.Refused? ==> Planets.StartExploration(s, hit.value) == Err(r.error))
    ensures Valid(s) ==> r.Refused? || Valid(r.state)
  {
    match Planets.PlanetAt(s.planets, cam, x, y, canvasHeight)
    case Some(i) =>
      (match Planets.StartExploration(s, i)
       case Ok(t) => Exploring(t, i)
       case Err(e) => Refused(e))
    case None =>
      var t := Fog.RevealArea(s, cam, x, y, d);
      assert |t.discoveredAreas| == |s.discoveredAreas| + 1 && t.energy == s.energy;
      Launched(t)
  }

  /** Clicking the disc of a planet whose exploration the previous click
      started is refused as already exploring, and changes nothing: the
      scan still stops at that planet, because starting exploration moves
      no planet and changes no other one. */
  lemma SecondClickRefused(s: GameState, cam: Camera, x: real, y: real, canvasHeight: real, d: Fog.RevealDraws)
    requires Fog.DrawsOk(d)
    requires OnCanvasClick(s, cam, x, y, canvasHeight, d).Exploring?
    requires var p := s.planets[OnCanvasClick(s, cam, x, y, canvasHeight, d).planet];
      Planets.OnDisc(p.x, p.y, cam, x, y)
    ensures OnCanvasClick(OnCanvasClick(s, cam, x, y, canvasHeight, d).state, cam, x, y, canvasHeight, d)
      == Refused(AlreadyExploring)
  {
    var first := OnCanvasClick(s, cam, x, y, canvasHeight, d);
    Planets.RestartRefused(s, first.planet, cam, x, y, canvasHeight);
  }

  // ---------------------------------------------------------------------
  // Station panel

  /** From the default state, the first upgrade needs 100 energy. */
  lemma FirstUpgradeNeedsHundred()
    ensures Economy.Upgrade(DefaultState) == Err(InsufficientEnergy)
    ensures Economy.Upgrade(DefaultState.(energy := 100.0)) == Ok(DefaultState.(energy := 0.0, stationLevel := 2))
  {
  }

  // ---------------------------------------------------------------------
  // Flights

  /** The booster a found bank booster becomes, activated at wall-clock `now`. */
  function Activate(k: BoosterKind, now: int): (b: Booster)
    ensures b.kind == k && b.startTime == now && b.duration == BoosterData(k).duration
    ensures Economy.Active(b, now)
  {
    Booster(k, now, BoosterData(k).duration)
  }

  /** The flight's end: the energy collected is added up to the capacity,
      and each booster found becomes an active booster from `now`, in the
      order found. A run never collects negative energy, so a valid state
      stays valid. */
  function CompleteFlight(s: GameState, collected: real, found: seq<BoosterKind>, now: int): (r: GameState)
    ensures r.energy <= Capacity(s.stationLevel)
    ensures s.energy + collected <= Capacity(s.stationLevel) ==> r.energy == s.energy + collected
    ensures s.energy + collected > Capacity(s.stationLevel) ==> r.energy == Capacity(s.stationLevel)
    ensures collected >= 0.0 && s.energy <= Capacity(s.stationLevel) ==> r.energy >= s.energy
    ensures |r.boosters| == |s.boosters| + |found|
    ensures r.boosters[..|s.boosters|] == s.boosters
    ensures forall j :: 0 <= j < |found| ==>
      && r.boosters[|s.boosters| + j].kind == found[j] && r.boosters[|s.boosters| + j].startTime == now
      && r.boosters[|s.boosters| + j].duration == BoosterData(found[j]).duration
      && Economy.Active(r.boosters[|s.boosters| + j], now)
    ensures r == s.(energy := r.energy, boosters := r.boosters)
    ensures Valid(s) && collected >= 0.0 ==> Valid(r)
  {
    var added := seq(|found|, j requires 0 <= j < |found| => Activate(found[j], now));
    s.(energy := Min(Capacity(s.stationLevel), s.energy + collected), boosters := s.boosters + added)
  }

  /** The boosters a flight brings back all survive the next expiry filter at
      the same wall-clock time. */
  lemma FlightBoostersSurvivePrune(s: GameState, collected: real, found: seq<BoosterKind>, now: int)
    ensures var r := CompleteFlight(s, collected, found, now);
      Economy.PruneBoosters(r.boosters, now)
        == Economy.PruneBoosters(s.boosters, now) + r.boosters[|s.boosters|..]
  {
    var r := CompleteFlight(s, collected, found, now);
    var added := r.boosters[|s.boosters|..];
    assert r.boosters == s.boosters + added;
    Economy.PruneKeepsOrder(s.boosters, added, now);
    Economy.PruneKeepsActive(added, now);
  }
}

=== FILE: minigame.dfy ===
/** The flight minigame's world: falling asteroids and pickups, how they are
    spawned from `Math.random()` draws, how they move, and what touching them
    does to the shuttle. */
module Minigame {
  import opened Tables
  import opened World

  const SpawnInterval: real := 500.0
  const BoosterInterval: real := 30000.0
  const MaxBoosters: int := 3
  const AsteroidChance: real := 0.9
  const PickupChance: real := 0.4
  const OxygenPickupChance: real := 0.6
  const CargoChance: real := 0.12
  const ShuttleMargin: real := 18.0
  const ShuttleSpeed: real := 0.4
  const ShuttleReach: real := 12.0
  const PickupReach: real := 18.0
  const OxygenCap: real := 200.0
  const OxygenGain: real := 60.0
  const AsteroidPenalty: real := 40.0
  const CargoEnergy: real := 80.0
  const CargoSpeed: real := 1.1

  // ---------------------------------------------------------------------
  // Entities

  datatype AsteroidSize = Small | Medium | Large

  function SizeRadius(s: AsteroidSize): real {
    match s
    case Small => 6.0
    case Medium => 12.0
    case Large => 20.0
  }

  function SizeBaseSpeed(s: AsteroidSize): real {
    match s
    case Small => 3.0
    case Medium => 2.5
    case Large => 2.0
  }

  datatype Asteroid = Asteroid(x: real, y: real, r: real, vy: real, size: AsteroidSize)

  datatype PickupKind = OxygenPickup | EnergyPickup | BoosterPickup(booster: BoosterKind) | CargoPickup

  datatype Pickup = Pickup(x: real, y: real, kind: PickupKind, vy: real)

  /** One flight: the canvas size, the shuttle, the objects on screen, the
      timers, the run's resources, and `draws`, the number of `Math.random()`
      values used so far. */
  datatype Run = Run(
    width: real, height: real, shuttleX: real, shuttleY: real,
    asteroids: seq<Asteroid>, pickups: seq<Pickup>,
    spawnTimer: real, boosterSpawnTimer: real, timeElapsed: real, distance: real,
    oxygen: real, oxyAcc: real, collectedEnergy: real,
    foundBoosters: seq<BoosterKind>, currentBoosters: int,
    last: real, running: bool, draws: nat)

  /** `Math.random() * (width - 2 * margin) + margin`: an x position that
      keeps `margin` clear of both edges of a canvas at least that wide. */
  function Lane(r: real, width: real, margin: real): (x: real)
    requires Unit(r)
    ensures width >= 2.0 * margin ==> margin <= x <= width - margin
  {
    var span := width - 2.0 * margin;
    ScaleUnit(r, span);
    r * span + margin
  }

  // ---------------------------------------------------------------------
  // Spawning

  /** `spawnAsteroid`: a size roll (a second roll only when the first is not
      small), a speed factor in [0.3, 1), the x position, and a rotation draw
      that only affects drawing. */
  function SpawnAsteroid(run: Run, rand: Stream): (r: Run)
    requires UnitStream(rand)
    ensures |r.asteroids| == |run.asteroids| + 1
    ensures r.asteroids[..|run.asteroids|] == run.asteroids
    ensures var a := r.asteroids[|run.asteroids|];
      && a.y == -30.0
      && (a.size == Small <==> rand(run.draws) < 0.6)
      && (a.size == Medium <==> rand(run.draws) >= 0.6 && rand(run.draws + 1) < 0.85)
      && a.r == SizeRadius(a.size)
      && 0.3 * SizeBaseSpeed(a.size) <= a.vy <= SizeBaseSpeed(a.size)
      && (run.width >= 40.0 ==> 20.0 <= a.x <= run.width - 20.0)
    ensures r.draws == run.draws + (if rand(run.draws) < 0.6 then 4 else 5)
    ensures r == run.(asteroids := r.asteroids, draws := r.draws)
  {
    var k := run.draws;
    var size := if rand(k) < 0.6 then Small else if rand(k + 1) < 0.85 then Medium else Large;
    var k1 := if rand(k) < 0.6 then k + 1 else k + 2;
    var speed := 0.3 + rand(k1) * 0.7;
    ScaleUnit(rand(k1), 0.7);
    var x := Lane(rand(k1 + 1), run.width, 20.0);
    var a := Asteroid(x, -30.0, SizeRadius(size), SizeBaseSpeed(size) * speed, size);
    assert SizeBaseSpeed(size) * speed <= SizeBaseSpeed(size) * 1.0;
    run.(asteroids := run.asteroids + [a], draws := k1 + 3)
  }

  /** `spawnPickup(kind)`: a speed in [1, 2.5), then the x position. */
  function SpawnPickup(run: Run, kind: PickupKind, rand: Stream): (r: Run)
    requires UnitStream(rand)
    ensures |r.pickups| == |run.pickups| + 1 && r.pickups[..|run.pickups|] == run.pickups
    ensures var p := r.pickups[|run.pickups|];
      && p.kind == kind && p.y == -20.0 && 1.0 <= p.vy <= 2.5
      && (run.width >= 32.0 ==> 16.0 <= p.x <= run.width - 16.0)
    ensures r == run.(pickups := r.pickups, draws := run.draws + 2)
  {
    var k := run.draws;
    ScaleUnit(rand(k), 1.5);
    var p := Pickup(Lane(rand(k + 1), run.width, 16.0), -20.0, kind, 1.0 + rand(k) * 1.5);
    run.(pickups := run.pickups + [p], draws := k + 2)
  }

  /** `spawnBooster`: a uniformly chosen bank booster, its x position, and a
      slow speed in [0.6, 1). */
  function SpawnBooster(run: Run, rand: Stream): (r: Run)
    requires UnitStream(rand)
    ensures |r.pickups| == |run.pickups| + 1 && r.pickups[..|run.pickups|] == run.pickups
    ensures var p := r.pickups[|run.pickups|];
      && p.kind == BoosterPickup(BoosterKinds[PickIndex(rand(run.draws), |BoosterKinds|)])
      && p.y == -20.0 && 0.6 <= p.vy <= 1.0
      && (run.width >= 32.0 ==> 16.0 <= p.x <= run.width - 16.0)
    ensures r == run.(pickups := r.pickups, draws := run.draws + 3)
  {
    var k := run.draws;
    var kind := BoosterKinds[PickIndex(rand(k), |BoosterKinds|)];
    ScaleUnit(rand(k + 2), 0.4);
    var p := Pickup(Lane(rand(k + 1), run.width, 16.0), -20.0, BoosterPickup(kind), 0.6 + rand(k + 2) * 0.4);
    run.(pickups := run.pickups + [p], draws := k + 3)
  }

  /** `maybeSpawnCargo`: at most one cargo container per session. Once the
      session flag is set nothing is drawn and nothing spawns; otherwise a
      roll below 0.12 spawns the cargo and sets the flag. */
  function MaybeSpawnCargo(run: Run, gs: GameState, rand: Stream): (r: (Run, GameState))
    requires UnitStream(rand)
    ensures gs.sessionCargoSpawned ==> r == (run, gs)
    ensures !gs.sessionCargoSpawned && rand(run.draws) >= CargoChance ==>
      r == (run.(draws := run.draws + 1), gs)
    ensures !gs.sessionCargoSpawned && rand(run.draws) < CargoChance ==>
      && r.1 == gs.(sessionCargoSpawned := true)
      && r.0 == run.(pickups := r.0.pickups, draws := run.draws + 2)
      && |r.0.pickups| == |run.pickups| + 1 && r.0.pickups[..|run.pickups|] == run.pickups
      && r.0.pickups[|run.pickups|].kind == CargoPickup
      && r.0.pickups[|run.pickups|].vy == CargoSpeed
      && (run.width >= 40.0 ==> 20.0 <= r.0.pickups[|run.pickups|].x <= run.width - 20.0)
  {
    var k := run.draws;
    if gs.sessionCargoSpawned then (run, gs)
    else if rand(k) < CargoChance then
      var p := Pickup(Lane(rand(k + 1), run.width, 20.0), -20.0, CargoPickup, CargoSpeed);
      (run.(pickups := run.pickups + [p], draws := k + 2), gs.(sessionCargoSpawned := true))
    else
      (run.(draws := k + 1), gs)
  }

  /** Number of cargo containers among the pickups. */
  function CargoCount(ps: seq<Pickup>): nat
    decreases |ps|
  {
    if |ps| == 0 then 0
    else CargoCount(ps[..|ps| - 1]) + (if ps[|ps| - 1].kind == CargoPickup then 1 else 0)
  }

  /** Cargo spawning adds a container only when the flag was clear, and it
      always leaves the flag set afterwards if it did. */
  lemma CargoOncePerSession(run: Run, gs: GameState, rand: Stream)
    requires UnitStream(rand)
    ensures var r := MaybeSpawnCargo(run, gs, rand);
      && CargoCount(r.0.pickups) <= CargoCount(run.pickups) + 1
      && (CargoCount(r.0.pickups) > CargoCount(run.pickups) <==> !gs.sessionCargoSpawned && rand(run.draws) < CargoChance)
      && (CargoCount(r.0.pickups) > CargoCount(run.pickups) ==> r.1.sessionCargoSpawned)
  {
    var r := MaybeSpawnCargo(run, gs, rand);
    if !gs.sessionCargoSpawned && rand(run.draws) < CargoChance {
      assert r.0.pickups[..|r.0.pickups| - 1] == run.pickups;
    }
  }

  /** Where a spawn wave reads its pickup roll: after the asteroid roll and,
      when an asteroid spawned, the four or five draws it used. */
  function PickupRoll(run: Run, rand: Stream): (k: nat)
    ensures run.draws < k <= run.draws + 6
  {
    var k := run.draws;
    if rand(k) < AsteroidChance then k + (if rand(k + 1) < 0.6 then 5 else 6) else k + 1
  }

  /** The spawn wave run when the spawn timer passes 500 ms: an asteroid with
      chance 0.9, a pickup with chance 0.4 (oxygen with chance 0.6, else
      energy), then the cargo check. */
  function SpawnWave(run: Run, gs: GameState, rand: Stream): (r: (Run, GameState))
    requires UnitStream(rand)
    ensures |run.asteroids| <= |r.0.asteroids| <= |run.asteroids| + 1
    ensures r.0.asteroids[..|run.asteroids|] == run.asteroids
    ensures |r.0.asteroids| == |run.asteroids| + 1 <==> rand(run.draws) < AsteroidChance
    ensures |run.pickups| <= |r.0.pickups| <= |run.pickups| + 2
    ensures r.0.pickups[..|run.pickups|] == run.pickups
    ensures r.0 == run.(asteroids := r.0.asteroids, pickups := r.0.pickups, draws := r.0.draws)
    ensures r.1 == gs.(sessionCargoSpawned := r.1.sessionCargoSpawned)
    ensures gs.sessionCargoSpawned ==> r.1.sessionCargoSpawned
  {
    var k := run.draws;
    var r1 := if rand(k) < AsteroidChance then SpawnAsteroid(run.(draws := k + 1), rand) else run.(draws := k + 1);
    var k2 := r1.draws;
    var r2 :=
      if rand(k2) < PickupChance then
        SpawnPickup(r1.(draws := k2 + 2), if rand(k2 + 1) < OxygenPickupChance then OxygenPickup else EnergyPickup, rand)
      else r1.(draws := k2 + 1);
    MaybeSpawnCargo(r2, gs, rand)
  }

  /** Which rolls a spawn wave reads after the asteroid: a pickup spawns
      exactly when the pickup roll is below 0.4, and it is oxygen exactly when
      the next draw is below 0.6; the cargo roll comes after them. */
  lemma SpawnWaveRolls(run: Run, gs: GameState, rand: Stream)
    requires UnitStream(rand)
    ensures var r := SpawnWave(run, gs, rand);
      var k2 := PickupRoll(run, rand);
      && (rand(k2) < PickupChance <==>
            |r.0.pickups| > |run.pickups| && r.0.pickups[|run.pickups|].kind != CargoPickup)
      && (rand(k2) < PickupChance ==>
            r.0.pickups[|run.pickups|].kind == (if rand(k2 + 1) < OxygenPickupChance then OxygenPickup else EnergyPickup))
      && var k3 := if rand(k2) < PickupChance then k2 + 4 else k2 + 1;
         (r.1.sessionCargoSpawned <==> gs.sessionCargoSpawned || rand(k3) < CargoChance)
  {
  }

  /** The booster timer: it accumulates frame time and, once at least 30 s
      have built up while fewer than three boosters are held, restarts at
      zero and spawns a booster. */
  function BoosterWave(run: Run, dt: real, rand: Stream): (r: Run)
    requires UnitStream(rand)
    ensures var due := run.boosterSpawnTimer + dt >= BoosterInterval && run.currentBoosters < MaxBoosters;
      && (due ==> r.boosterSpawnTimer == 0.0 && |r.pickups| == |run.pickups| + 1
                  && r.pickups[|run.pickups|].kind.BoosterPickup?)
      && (!due ==> r == run.(boosterSpawnTimer := run.boosterSpawnTimer + dt))
    ensures r.pickups[..|run.pickups|] == run.pickups
    ensures r == run.(boosterSpawnTimer := r.boosterSpawnTimer, pickups := r.pickups, draws := r.draws)
  {
    var timer := run.boosterSpawnTimer + dt;
    if timer >= BoosterInterval && run.currentBoosters < MaxBoosters then
      SpawnBooster(run.(boosterSpawnTimer := 0.0), rand)
    else
      run.(boosterSpawnTimer := timer)
  }

  // ---------------------------------------------------------------------
  // Movement

  /** Which arrow keys are held. */
  datatype Controls = Controls(left: bool, right: bool)

  /** The shuttle moves 0.4 px/ms per held key (both cancel) and is clamped
      18 px inside the canvas edges. */
  function Steer(x: real, width: real, c: Controls, dt: real): (nx: real)
    ensures nx >= ShuttleMargin
    ensures width >= 2.0 * ShuttleMargin ==> nx <= width - ShuttleMargin
    ensures var moved := x + (if c.right then ShuttleSpeed * dt else 0.0) - (if c.left then ShuttleSpeed * dt else 0.0);
      && (ShuttleMargin <= moved <= width - ShuttleMargin ==> nx == moved)
      && (moved < ShuttleMargin ==> nx == ShuttleMargin)
      && (moved > width - ShuttleMargin ==> nx == Max(ShuttleMargin, width - ShuttleMargin))
  {
    var x1 := if c.left then x - ShuttleSpeed * dt else x;
    var x2 := if c.right then x1 + ShuttleSpeed * dt else x1;
    Max(ShuttleMargin, Min(width - ShuttleMargin, x2))
  }

  /** Distance fallen in `dt` ms at speed `vy` px per 16 ms frame. */
  function Drop(vy: real, dt: real): (d: real)
    ensures 16.0 * d == vy * dt
    ensures vy >= 0.0 && dt >= 0.0 ==> d >= 0.0
  {
    vy * (dt / 16.0)
  }

  lemma DropAdds(vy: real, dt1: real, dt2: real)
    ensures Drop(vy, dt1) + Drop(vy, dt2) == Drop(vy, dt1 + dt2)
  {
    assert vy * (dt1 / 16.0) + vy * (dt2 / 16.0) == vy * ((dt1 + dt2) / 16.0);
  }

  /** Every asteroid moves down by its own speed; nothing else about it changes. */
  function FallAsteroids(rocks: seq<Asteroid>, dt: real): (r: seq<Asteroid>)
    ensures |r| == |rocks|
    ensures forall i :: 0 <= i < |rocks| ==>
      && r[i] == rocks[i].(y := r[i].y) && 16.0 * (r[i].y - rocks[i].y) == rocks[i].vy * dt
      && (rocks[i].vy >= 0.0 && dt >= 0.0 ==> r[i].y >= rocks[i].y)
  {
    seq(|rocks|, i requires 0 <= i < |rocks| => rocks[i].(y := rocks[i].y + Drop(rocks[i].vy, dt)))
  }

  /** Every pickup moves down by its own speed, like the asteroids. */
  function FallPickups(ps: seq<Pickup>, dt: real): (r: seq<Pickup>)
    ensures Kinds(r) == Kinds(ps)
    ensures forall i :: 0 <= i < |ps| ==>
      && r[i] == ps[i].(y := r[i].y) && 16.0 * (r[i].y - ps[i].y) == ps[i].vy * dt
      && (ps[i].vy >= 0.0 && dt >= 0.0 ==> r[i].y >= ps[i].y)
  {
    seq(|ps|, i requires 0 <= i < |ps| => ps[i].(y := ps[i].y + Drop(ps[i].vy, dt)))
  }

  /** Falling for two frames is falling for their total time: object motion
      does not depend on how the time is sliced into frames. */
  lemma FallSplits(rocks: seq<Asteroid>, ps: seq<Pickup>, dt1: real, dt2: real)
    ensures FallAsteroids(FallAsteroids(rocks, dt1), dt2) == FallAsteroids(rocks, dt1 + dt2)
    ensures FallPickups(FallPickups(ps, dt1), dt2) == FallPickups(ps, dt1 + dt2)
  {
    forall i | 0 <= i < |rocks|
      ensures FallAsteroids(FallAsteroids(rocks, dt1), dt2)[i] == FallAsteroids(rocks, dt1 + dt2)[i]
    {
      DropAdds(rocks[i].vy, dt1, dt2);
    }
    forall i | 0 <= i < |ps|
      ensures FallPickups(FallPickups(ps, dt1), dt2)[i] == FallPickups(ps, dt1 + dt2)[i]
    {
      DropAdds(ps[i].vy, dt1, dt2);
    }
  }

  // ---------------------------------------------------------------------
  // Collisions

  /** The squared length of the offset `(dx, dy)`. */
  function Dist2(dx: real, dy: real): real {
    dx * dx + dy * dy
  }

  /** The asteroid is closer to the shuttle than its radius plus 12. With the
      squared distance, `hypot < reach` holds exactly when the reach is
      positive and `d2 < reach * reach`. */
  predicate Hits(a: Asteroid, sx: real, sy: real) {
    var reach := a.r + ShuttleReach;
    reach > 0.0 && Dist2(a.x - sx, a.y - sy) < reach * reach
  }

  /** With `d` the asteroid's distance from the shuttle, it hits exactly when
      `d` is below its radius plus 12. */
  lemma HitsByDistance(a: Asteroid, sx: real, sy: real, d: real)
    requires d >= 0.0 && d * d == Dist2(a.x - sx, a.y - sy)
    ensures Hits(a, sx, sy) <==> d < a.r + ShuttleReach
  {
    SquareCompare(d, a.r + ShuttleReach);
  }

  /** Whether an asteroid misses the shuttle at `(sx, sy)`, as a filter condition. */
  function MissesAt(sx: real, sy: real): Asteroid -> bool {
    a => !Hits(a, sx, sy)
  }

  /** The asteroids that do not hit the shuttle, in order: an asteroid
      remains exactly when it was there and misses. */
  function Missed(rocks: seq<Asteroid>, sx: real, sy: real): (r: seq<Asteroid>)
    ensures forall a :: a in r <==> a in rocks && !Hits(a, sx, sy)
  {
    FilterMembers(rocks, MissesAt(sx, sy));
    Filter(rocks, MissesAt(sx, sy))
  }

  /** The collision pass, from the last asteroid to the first: each one that
      hits is removed and costs 40 oxygen. */
  function CollideAsteroids(rocks: seq<Asteroid>, sx: real, sy: real, oxygen: real): (r: (seq<Asteroid>, real))
    ensures r.0 == Missed(rocks, sx, sy)
    ensures r.1 == oxygen - AsteroidPenalty * ((|rocks| - |r.0|) as real)
    decreases |rocks|
  {
    if |rocks| == 0 then ([], oxygen)
    else
      var front := rocks[..|rocks| - 1];
      var a := rocks[|rocks| - 1];
      assert rocks == front + [a];
      FilterSnoc(front, a, MissesAt(sx, sy));
      if Hits(a, sx, sy) then CollideAsteroids(front, sx, sy, oxygen - AsteroidPenalty)
      else
        var rest := CollideAsteroids(front, sx, sy, oxygen);
        (rest.0 + [a], rest.1)
  }

  /** The pickup is within 18 px of the shuttle. */
  predicate Touches(p: Pickup, sx: real, sy: real) {
    Dist2(p.x - sx, p.y - sy) < PickupReach * PickupReach
  }

  /** With `d` the pickup's distance from the shuttle, it is touched exactly
      when `d` is below 18. */
  lemma TouchesByDistance(p: Pickup, sx: real, sy: real, d: real)
    requires d >= 0.0 && d * d == Dist2(p.x - sx, p.y - sy)
    ensures Touches(p, sx, sy) <==> d < PickupReach
  {
    SquareCompare(d, PickupReach);
  }

  /** Whether a pickup stays clear of the shuttle at `(sx, sy)`, as a filter condition. */
  function ClearOf(sx: real, sy: real): Pickup -> bool {
    p => !Touches(p, sx, sy)
  }

  /** The pickups the shuttle does not touch, in order: a pickup remains
      exactly when it was there and is not within reach. */
  function Untouched(ps: seq<Pickup>, sx: real, sy: real): (r: seq<Pickup>)
    ensures forall p :: p in r <==> p in ps && !Touches(p, sx, sy)
  {
    FilterMembers(ps, ClearOf(sx, sy));
    Filter(ps, ClearOf(sx, sy))
  }

  /** Whether a pickup is within reach of the shuttle at `(sx, sy)`, as a filter condition. */
  function TouchedBy(sx: real, sy: real): Pickup -> bool {
    p => Touches(p, sx, sy)
  }

  /** The kinds of a sequence of pickups, position by position. */
  function Kinds(ps: seq<Pickup>): (ks: seq<PickupKind>)
    ensures |ks| == |ps|
    ensures forall i :: 0 <= i < |ps| ==> ks[i] == ps[i].kind
  {
    seq(|ps|, i requires 0 <= i < |ps| => ps[i].kind)
  }

  /** What the run has gathered so far, as the pickup pass updates it. */
  datatype Haul = Haul(oxygen: real, collectedEnergy: real, found: seq<BoosterKind>,
                       currentBoosters: int, missions: int, draws: nat)

  /** The effect of touching one pickup. Oxygen refills by 60 up to 200; an
      energy crystal is worth 15 plus up to 20 more; a booster is kept only
      while fewer than three are held; cargo holds a random bank booster,
      80 energy and completes a mission, and does not count against the
      three-booster limit. */
  function Collect(kind: PickupKind, h: Haul, rand: Stream): (r: Haul)
    requires UnitStream(rand)
    ensures kind.OxygenPickup? ==> r == h.(oxygen := Min(OxygenCap, h.oxygen + OxygenGain))
    ensures kind.EnergyPickup? ==>
      && h.collectedEnergy + 15.0 <= r.collectedEnergy < h.collectedEnergy + 35.0
      && r == h.(collectedEnergy := r.collectedEnergy, draws := h.draws + 1)
    ensures kind.BoosterPickup? && h.currentBoosters < MaxBoosters ==>
      r == h.(found := h.found + [kind.booster], currentBoosters := h.currentBoosters + 1)
    ensures kind.BoosterPickup? && h.currentBoosters >= MaxBoosters ==> r == h
    ensures kind.CargoPickup? ==>
      r == h.(found := h.found + [BoosterKinds[PickIndex(rand(h.draws), |BoosterKinds|)]],
              collectedEnergy := h.collectedEnergy + CargoEnergy,
              missions := h.missions + 1, draws := h.draws + 1)
  {
    match kind
    case OxygenPickup => h.(oxygen := Min(OxygenCap, h.oxygen + OxygenGain))
    case EnergyPickup => h.(collectedEnergy := h.collectedEnergy + 15.0 + rand(h.draws) * 20.0, draws := h.draws + 1)
    case BoosterPickup(b) =>
      if h.currentBoosters < MaxBoosters then h.(found := h.found + [b], currentBoosters := h.currentBoosters + 1)
      else h
    case CargoPickup =>
      var b := BoosterKinds[PickIndex(rand(h.draws), |BoosterKinds|)];
      h.(found := h.found + [b], collectedEnergy := h.collectedEnergy + CargoEnergy,
         missions := h.missions + 1, draws := h.draws + 1)
  }

  /** What every pickup touch keeps true of a haul: oxygen stays at most 200,
      collected energy is never negative, at most three boosters are held,
      and there are never more held than found. */
  predicate HaulOk(h: Haul) {
    h.oxygen <= OxygenCap && h.collectedEnergy >= 0.0
    && 0 <= h.currentBoosters <= MaxBoosters && h.currentBoosters <= |h.found|
  }

  /** The pickup pass, from the last pickup to the first: each touched pickup
      is collected and removed. It keeps `HaulOk`, never lowers the
      collected energy or the mission count, and never forgets a found
      booster. */
  function CollidePickups(ps: seq<Pickup>, sx: real, sy: real, h: Haul, rand: Stream): (r: (seq<Pickup>, Haul))
    requires UnitStream(rand)
    ensures r.0 == Untouched(ps, sx, sy)
    ensures HaulOk(h) ==> HaulOk(r.1)
    ensures r.1.collectedEnergy >= h.collectedEnergy
    ensures r.1.missions >= h.missions
    ensures h.found <= r.1.found
    decreases |ps|
  {
    if |ps| == 0 then ([], h)
    else
      var front := ps[..|ps| - 1];
      var p := ps[|ps| - 1];
      assert ps == front + [p];
      FilterSnoc(front, p, ClearOf(sx, sy));
      if Touches(p, sx, sy) then
        var h1 := Collect(p.kind, h, rand);
        assert HaulOk(h) ==> HaulOk(h1);
        assert h1.collectedEnergy >= h.collectedEnergy && h.found <= h1.found;
        CollidePickups(front, sx, sy, h1, rand)
      else
        var rest := CollidePickups(front, sx, sy, h, rand);
        (rest.0 + [p], rest.1)
  }

  /** Collecting a sequence of pickup kinds, first to last. */
  function CollectAll(kinds: seq<PickupKind>, h: Haul, rand: Stream): Haul
    requires UnitStream(rand)
    decreases |kinds|
  {
    if |kinds| == 0 then h else CollectAll(kinds[1..], Collect(kinds[0], h, rand), rand)
  }

  /** The haul a pickup pass ends with is what collecting the touched
      pickups one after the other gives, starting from the last of them:
      the pass applies `Collect` to exactly the touched pickups, in reverse
      order, and to nothing else. */
  lemma {:induction false} CollidePickupsIsFold(ps: seq<Pickup>, sx: real, sy: real, h: Haul, rand: Stream)
    requires UnitStream(rand)
    ensures CollidePickups(ps, sx, sy, h, rand).1
         == CollectAll(Reverse(Kinds(Filter(ps, TouchedBy(sx, sy)))), h, rand)
    decreases |ps|
  {
    if |ps| > 0 {
      var front := ps[..|ps| - 1];
      var p := ps[|ps| - 1];
      assert ps == front + [p];
      FilterSnoc(front, p, TouchedBy(sx, sy));
      var touched := Filter(front, TouchedBy(sx, sy));
      if Touches(p, sx, sy) {
        var h1 := Collect(p.kind, h, rand);
        CollidePickupsIsFold(front, sx, sy, h1, rand);
        assert Filter(ps, TouchedBy(sx, sy)) == touched + [p];
        assert Kinds(touched + [p]) == Kinds(touched) + [p.kind];
        var ks := Reverse(Kinds(touched) + [p.kind]);
        assert ks == [p.kind] + Reverse(Kinds(touched));
        assert ks[0] == p.kind && ks[1..] == Reverse(Kinds(touched));
      } else {
        CollidePickupsIsFold(front, sx, sy, h, rand);
        assert Filter(ps, TouchedBy(sx, sy)) == touched;
      }
    }
  }

  /** A pass in which the shuttle touches nothing leaves the haul as it was. */
  lemma NothingTouchedKeepsHaul(ps: seq<Pickup>, sx: real, sy: real, h: Haul, rand: Stream)
    requires UnitStream(rand)
    requires forall i :: 0 <= i < |ps| ==> !Touches(ps[i], sx, sy)
    ensures CollidePickups(ps, sx, sy, h, rand).1 == h
  {
    CollidePickupsIsFold(ps, sx, sy, h, rand);
    FilterNone(ps, TouchedBy(sx, sy));
  }
}

=== FILE: oxygen.dfy ===
/** The minigame's oxygen clock: frame time is accumulated, and one unit of
    oxygen is used up per whole 300 ms interval, however the frames fall. */
module OxygenClock {
  import opened Tables

  const OxyInterval: real := 300.0

  /** One frame of the accumulator: add `dt`; once a whole interval has built
      up, take out every whole interval that fits and report how many. The
      game only takes the remainder once the accumulator holds at least one
      interval, so it is positive there, and its remainder is the
      floor-based one written here. */
  function Breathe(acc: real, dt: real): (r: (real, nat))
    ensures acc + dt == r.0 + OxyInterval * (r.1 as real)
    ensures r.0 < OxyInterval
    ensures acc + dt >= 0.0 ==> 0.0 <= r.0
    ensures acc + dt < OxyInterval ==> r.1 == 0
  {
    var total := acc + dt;
    if total >= OxyInterval then
      var steps := (total / OxyInterval).Floor;
      assert steps >= 1;
      (total - OxyInterval * (steps as real), steps)
    else
      (total, 0)
  }

  /** The accumulator run over a sequence of frames: the final remainder and
      the total number of oxygen units used. */
  function BreatheFrames(acc: real, dts: seq<real>): (r: (real, nat))
    decreases |dts|
  {
    if |dts| == 0 then (acc, 0)
    else
      var first := Breathe(acc, dts[0]);
      var rest := BreatheFrames(first.0, dts[1..]);
      (rest.0, first.1 + rest.1)
  }

  /** Nothing is lost or invented across frames: the time put in equals the
      remainder plus the intervals taken out, and the remainder stays below
      one interval. */
  lemma {:induction false} BreatheFramesConserves(acc: real, dts: seq<real>)
    requires 0.0 <= acc < OxyInterval
    requires forall i :: 0 <= i < |dts| ==> dts[i] >= 0.0
    ensures acc + Sum(dts) == BreatheFrames(acc, dts).0 + OxyInterval * (BreatheFrames(acc, dts).1 as real)
    ensures 0.0 <= BreatheFrames(acc, dts).0 < OxyInterval
    decreases |dts|
  {
    if |dts| > 0 {
      var first := Breathe(acc, dts[0]);
      var rest := dts[1..];
      assert forall i :: 0 <= i < |rest| ==> rest[i] == dts[i + 1];
      BreatheFramesConserves(first.0, rest);
      var tail := BreatheFrames(first.0, rest);
      assert Sum(dts) == dts[0] + Sum(rest);
      assert (first.1 + tail.1) as real == (first.1 as real) + (tail.1 as real);
    }
  }

  /** The integer count of whole intervals in `x` is unique. */
  lemma FloorOfIntervals(x: real, n: int)
    requires OxyInterval * (n as real) <= x < OxyInterval * (n as real) + OxyInterval
    ensures (x / OxyInterval).Floor == n
  {
    assert (n as real) <= x / OxyInterval < (n as real) + 1.0;
  }

  /** A single frame uses exactly the whole intervals in the accumulated time. */
  lemma BreatheCountsIntervals(acc: real, dt: real)
    ensures acc + dt >= 0.0 ==> Breathe(acc, dt).1 == ((acc + dt) / OxyInterval).Floor
  {
    if acc + dt >= 0.0 {
      FloorOfIntervals(acc + dt, Breathe(acc, dt).1);
    }
  }

  /** Oxygen use does not depend on frame timing: over any frames, starting
      from an empty accumulator, the units used are the whole intervals in
      the total elapsed time. */
  lemma DepletionIgnoresFrameTiming(dts: seq<real>)
    requires forall i :: 0 <= i < |dts| ==> dts[i] >= 0.0
    ensures BreatheFrames(0.0, dts).1 == (Sum(dts) / OxyInterval).Floor
  {
    BreatheFramesConserves(0.0, dts);
    var r := BreatheFrames(0.0, dts);
    FloorOfIntervals(Sum(dts), r.1);
  }

  /** Two ways of slicing the same total time use the same oxygen. */
  lemma SameTimeSameOxygen(dts1: seq<real>, dts2: seq<real>)
    requires forall i :: 0 <= i < |dts1| ==> dts1[i] >= 0.0
    requires forall i :: 0 <= i < |dts2| ==> dts2[i] >= 0.0
    requires Sum(dts1) == Sum(dts2)
    ensures BreatheFrames(0.0, dts1).1 == BreatheFrames(0.0, dts2).1
  {
    DepletionIgnoresFrameTiming(dts1);
    DepletionIgnoresFrameTiming(dts2);
  }
}

=== FILE: planets.dfy ===
/** The planet lifecycle: spawning a product node, the click hit test,
    starting exploration, and the per-tick exploration progress with its
    one-time reward. A planet moves Idle -> Exploring -> Explored. */
module Planets {
  import opened Tables
  import opened World

  const SpawnChance: real := 0.15
  const HitRadius: real := 40.0
  /** Progress gained per millisecond: 100 after 10 000 ms. */
  const ProgressPerMs: real := 0.01
  const FullProgress: real := 100.0

  /** A fresh, idle planet of a uniformly drawn product kind. */
  function SpawnPlanet(x: real, y: real, kindRoll: real, id: real): (p: Planet)
    requires Unit(kindRoll)
    ensures PlanetOk(p)
    ensures !p.isExplored && !p.isExploring && p.explorationProgress == 0.0
    ensures p.x == x && p.y == y && p.id == id
    ensures p.kind in PlanetKinds
    ensures p.kind == PlanetKinds[PickIndex(kindRoll, |PlanetKinds|)]
  {
    var k := PlanetKinds[PickIndex(kindRoll, |PlanetKinds|)];
    Planet(id, x, y, k, PlanetCost(k), PlanetReward(k), false, 0.0, false)
  }

  // ---------------------------------------------------------------------
  // Hit test

  /** For an idle planet whose button is on screen, the click lands on its
      "explore" button below the disc. */
  predicate OnExploreButton(p: Planet, cam: Camera, x: real, y: real, canvasHeight: real) {
    var sx := p.x - cam.x;
    var buttonY := p.y - cam.y + HitRadius + 20.0;
    && !p.isExplored && !p.isExploring
    && buttonY < canvasHeight - 50.0
    && Abs(x - sx) <= 40.0
    && Abs(y - buttonY - 12.0) <= 12.0
  }

  /** The click at screen point `(x, y)` is within 40 px of the screen
      position of world point `(px, py)`. */
  predicate OnDisc(px: real, py: real, cam: Camera, x: real, y: real) {
    var dx := x - (px - cam.x);
    var dy := y - (py - cam.y);
    dx * dx + dy * dy <= HitRadius * HitRadius
  }

  /** A click at screen point `(x, y)` lands on the planet's disc or on its
      "explore" button. */
  predicate HitsPlanet(p: Planet, cam: Camera, x: real, y: real, canvasHeight: real) {
    OnDisc(p.x, p.y, cam, x, y) || OnExploreButton(p, cam, x, y, canvasHeight)
  }

  /** With `d` the click's distance from the planet's screen centre, the hit
      test is `d <= 40` or a hit on the explore button. */
  lemma HitsPlanetByDistance(p: Planet, cam: Camera, x: real, y: real, canvasHeight: real, d: real)
    requires d >= 0.0
    requires d * d == (x - (p.x - cam.x)) * (x - (p.x - cam.x)) + (y - (p.y - cam.y)) * (y - (p.y - cam.y))
    ensures HitsPlanet(p, cam, x, y, canvasHeight) <==> d <= HitRadius || OnExploreButton(p, cam, x, y, canvasHeight)
  {
    SquareCompare(d, HitRadius);
  }

  /** The first planet from index `i` on that the click hits. */
  function PlanetAtFrom(planets: seq<Planet>, i: nat, cam: Camera, x: real, y: real, canvasHeight: real): (r: Option<nat>)
    requires i <= |planets|
    ensures r.Some? ==> i <= r.value < |planets| && HitsPlanet(planets[r.value], cam, x, y, canvasHeight)
    ensures r.Some? ==> forall j :: i <= j < r.value ==> !HitsPlanet(planets[j], cam, x, y, canvasHeight)
    ensures r.None? ==> forall j :: i <= j < |planets| ==> !HitsPlanet(planets[j], cam, x, y, canvasHeight)
    decreases |planets| - i
  {
    if i == |planets| then None
    else if HitsPlanet(planets[i], cam, x, y, canvasHeight) then Some(i)
    else PlanetAtFrom(planets, i + 1, cam, x, y, canvasHeight)
  }

  /** The click hit test: the index of the first planet hit, if any. */
  function PlanetAt(planets: seq<Planet>, cam: Camera, x: real, y: real, canvasHeight: real): (r: Option<nat>)
    ensures r.Some? ==> r.value < |planets| && HitsPlanet(planets[r.value], cam, x, y, canvasHeight)
    ensures r.Some? ==> forall j :: 0 <= j < r.value ==> !HitsPlanet(planets[j], cam, x, y, canvasHeight)
    ensures r.None? <==> forall j :: 0 <= j < |planets| ==> !HitsPlanet(planets[j], cam, x, y, canvasHeight)
  {
    PlanetAtFrom(planets, 0, cam, x, y, canvasHeight)
  }

  // ---------------------------------------------------------------------
  // Starting exploration

  /** A click on planet `i`: refused if it is explored or being explored, or
      if energy is short; otherwise the cost is paid and exploration starts. */
  function StartExploration(s: GameState, i: nat): (r: Result<GameState>)
    requires i < |s.planets|
    ensures var p := s.planets[i];
      r.Err? <==> p.isExplored || p.isExploring || s.energy < p.energyCost
    ensures var p := s.planets[i];
      r.Err? ==> r.error == (if p.isExplored then AlreadyExplored
                             else if p.isExploring then AlreadyExploring
                             else InsufficientEnergy)
    ensures r.Ok? ==> r.value.energy == s.energy - s.planets[i].energyCost && r.value.energy >= 0.0
    ensures r.Ok? ==> |r.value.planets| == |s.planets|
    ensures r.Ok? ==> var q := r.value.planets[i];
      q.isExploring && !q.isExplored && q.explorationProgress == 0.0
      && q == s.planets[i].(isExploring := true, explorationProgress := 0.0)
    ensures r.Ok? ==> forall j :: 0 <= j < |s.planets| && j != i ==> r.value.planets[j] == s.planets[j]
    ensures r.Ok? ==> r.value == s.(energy := r.value.energy, planets := r.value.planets)
  {
    var p := s.planets[i];
    if p.isExplored then Err(AlreadyExplored)
    else if p.isExploring then Err(AlreadyExploring)
    else if s.energy < p.energyCost then Err(InsufficientEnergy)
    else
      Ok(s.(energy := s.energy - p.energyCost,
            planets := s.planets[i := p.(isExploring := true, explorationProgress := 0.0)]))
  }

  /** Once exploration of the first planet hit has started, a click on
      that planet's disc still finds it first, and starting again is
      refused as already exploring. */
  lemma RestartRefused(s: GameState, i: nat, cam: Camera, x: real, y: real, canvasHeight: real)
    requires PlanetAt(s.planets, cam, x, y, canvasHeight) == Some(i)
    requires StartExploration(s, i).Ok?
    requires OnDisc(s.planets[i].x, s.planets[i].y, cam, x, y)
    ensures var t := StartExploration(s, i).value;
      PlanetAt(t.planets, cam, x, y, canvasHeight) == Some(i) && StartExploration(t, i) == Err(AlreadyExploring)
  {
  }

  // ---------------------------------------------------------------------
  // Exploration progress

  /** This tick finishes the planet's exploration. */
  predicate Completes(p: Planet, dt: real) {
    p.isExploring && !p.isExplored && p.explorationProgress + dt * ProgressPerMs >= FullProgress
  }

  /** One planet's share of the exploration tick. With `dt >= 0`, a
      consistent planet stays consistent, its progress never goes back, and
      only a planet under exploration moves, by exactly `dt * 0.01` or up to
      exactly 100. */
  function Advance(p: Planet, dt: real): (q: Planet)
    ensures p.isExplored ==> q == p
    ensures q.id == p.id && q.x == p.x && q.y == p.y && q.kind == p.kind
    ensures q.energyCost == p.energyCost && q.energyReward == p.energyReward
    ensures q.isExplored && !p.isExplored <==> Completes(p, dt)
    ensures !p.isExploring ==> q == p
    ensures p.isExploring && !p.isExplored && !Completes(p, dt) ==>
      q.isExploring && q.explorationProgress == p.explorationProgress + dt * ProgressPerMs
    ensures Completes(p, dt) ==> q.explorationProgress == FullProgress && !q.isExploring
    ensures PlanetOk(p) && dt >= 0.0 ==> PlanetOk(q) && q.explorationProgress >= p.explorationProgress
  {
    if p.isExploring && !p.isExplored then
      var progress := p.explorationProgress + dt * ProgressPerMs;
      if progress >= FullProgress then
        p.(explorationProgress := FullProgress, isExploring := false, isExplored := true)
      else
        p.(explorationProgress := progress)
    else p
  }

  /** The exploration tick over all planets, in order: every planet advances,
      and each completion credits the planet's reward, capped at `cap`. The
      planets' new states do not depend on energy, so the loop splits into
      the planets it produces and the energy it threads. */
  function UpdateExploration(planets: seq<Planet>, energy: real, cap: real, dt: real): (r: (seq<Planet>, real))
    ensures |r.0| == |planets|
    ensures forall i :: 0 <= i < |planets| ==> r.0[i] == Advance(planets[i], dt)
    ensures !AnyCompletes(planets, dt) ==> r.1 == energy
    ensures AnyCompletes(planets, dt) ==> r.1 <= cap
    ensures (forall i :: 0 <= i < |planets| ==> planets[i].energyReward >= 0.0) && AnyCompletes(planets, dt) ==>
      r.1 == Min(cap, energy + CompletedRewards(planets, dt))
  {
    ExplorationCredit(planets, energy, cap, dt);
    (seq(|planets|, i requires 0 <= i < |planets| => Advance(planets[i], dt)), CreditCompletions(planets, energy, cap, dt))
  }

  /** The energy side of the exploration loop: visit the planets in order and
      credit each completing planet's reward, capped. */
  function CreditCompletions(planets: seq<Planet>, energy: real, cap: real, dt: real): (e: real)
    ensures !AnyCompletes(planets, dt) ==> e == energy
    ensures AnyCompletes(planets, dt) ==> e <= cap
    decreases |planets|
  {
    if |planets| == 0 then energy
    else
      var p := planets[0];
      var e := if Completes(p, dt) then Min(cap, energy + p.energyReward) else energy;
      AnyCompletesCons(planets, dt);
      CreditCompletions(planets[1..], e, cap, dt)
  }

  predicate AnyCompletes(planets: seq<Planet>, dt: real) {
    exists i :: 0 <= i < |planets| && Completes(planets[i], dt)
  }

  lemma AnyCompletesCons(planets: seq<Planet>, dt: real)
    requires |planets| > 0
    ensures AnyCompletes(planets, dt) <==> Completes(planets[0], dt) || AnyCompletes(planets[1..], dt)
  {
    if AnyCompletes(planets[1..], dt) {
      var j :| 0 <= j < |planets[1..]| && Completes(planets[1..][j], dt);
      assert Completes(planets[j + 1], dt);
    }
    if AnyCompletes(planets, dt) && !Completes(planets[0], dt) {
      var j :| 0 <= j < |planets| && Completes(planets[j], dt);
      assert j > 0 && Completes(planets[1..][j - 1], dt);
    }
  }

  /** The total reward of the planets this tick completes. */
  function CompletedRewards(planets: seq<Planet>, dt: real): real
    decreases |planets|
  {
    if |planets| == 0 then 0.0
    else (if Completes(planets[0], dt) then planets[0].energyReward else 0.0) + CompletedRewards(planets[1..], dt)
  }

  lemma {:induction false} CompletedRewardsNonNegative(planets: seq<Planet>, dt: real)
    requires forall i :: 0 <= i < |planets| ==> planets[i].energyReward >= 0.0
    ensures CompletedRewards(planets, dt) >= 0.0
    decreases |planets|
  {
    if |planets| > 0 {
      CompletedRewardsNonNegative(planets[1..], dt);
    }
  }

  /** Exploration never makes energy negative: with consistent planets every
      reward is positive, so completions only add. */
  lemma ExplorationKeepsEnergy(planets: seq<Planet>, energy: real, cap: real, dt: real)
    requires forall i :: 0 <= i < |planets| ==> PlanetOk(planets[i])
    requires energy >= 0.0 && cap >= 0.0
    ensures UpdateExploration(planets, energy, cap, dt).1 >= 0.0
  {
    forall i | 0 <= i < |planets|
      ensures planets[i].energyReward >= 0.0
    {
      PlanetTableShape(planets[i].kind);
    }
    CompletedRewardsNonNegative(planets, dt);
  }

  /** The tick credits each completing planet's reward exactly once: the new
      energy is the old energy plus the completed rewards, capped, whatever
      order the completions come in. Rewards are never negative in a valid
      state. */
  lemma {:induction false} ExplorationCredit(planets: seq<Planet>, energy: real, cap: real, dt: real)
    ensures (forall i :: 0 <= i < |planets| ==> planets[i].energyReward >= 0.0) ==>
      CreditCompletions(planets, energy, cap, dt)
        == if AnyCompletes(planets, dt) then Min(cap, energy + CompletedRewards(planets, dt)) else energy
    decreases |planets|
  {
    if |planets| > 0 && forall i :: 0 <= i < |planets| ==> planets[i].energyReward >= 0.0 {
      var p := planets[0];
      var rest := planets[1..];
      var e := if Completes(p, dt) then Min(cap, energy + p.energyReward) else energy;
      ExplorationCredit(rest, e, cap, dt);
      CompletedRewardsNonNegative(rest, dt);
      assert CreditCompletions(planets, energy, cap, dt) == CreditCompletions(rest, e, cap, dt);
      AnyCompletesCons(planets, dt);
      var a := if Completes(p, dt) then p.energyReward else 0.0;
      assert CompletedRewards(planets, dt) == a + CompletedRewards(rest, dt);
      if !AnyCompletes(rest, dt) {
        NoCompletionNoReward(rest, dt);
      } else if Completes(p, dt) {
        MinAbsorbs(cap, energy + p.energyReward, CompletedRewards(rest, dt));
      }
    }
  }

  /** Capping twice is capping once when the second addition is non-negative. */
  lemma MinAbsorbs(cap: real, x: real, b: real)
    requires b >= 0.0
    ensures Min(cap, Min(cap, x) + b) == Min(cap, x + b)
  {
  }

  lemma {:induction false} NoCompletionNoReward(planets: seq<Planet>, dt: real)
    requires !AnyCompletes(planets, dt)
    ensures CompletedRewards(planets, dt) == 0.0
    decreases |planets|
  {
    if |planets| > 0 {
      AnyCompletesCons(planets, dt);
      NoCompletionNoReward(planets[1..], dt);
    }
  }

  /** An explored planet is never touched again, so its reward cannot be
      credited twice. */
  lemma ExploredIsFinal(planets: seq<Planet>, energy: real, cap: real, dt: real, i: int)
    requires 0 <= i < |planets| && planets[i].isExplored
    ensures UpdateExploration(planets, energy, cap, dt).0[i] == planets[i]
    ensures !Completes(planets[i], dt)
  {
  }

  // ---------------------------------------------------------------------
  // Exploration over many frames

  function AdvanceFrames(p: Planet, dts: seq<real>): Planet
    decreases |dts|
  {
    if |dts| == 0 then p else AdvanceFrames(Advance(p, dts[0]), dts[1..])
  }

  lemma {:induction false} ExploredStaysExplored(p: Planet, dts: seq<real>)
    requires p.isExplored
    ensures AdvanceFrames(p, dts) == p
    decreases |dts|
  {
    if |dts| > 0 {
      ExploredStaysExplored(Advance(p, dts[0]), dts[1..]);
    }
  }

  /** Exploration finishes exactly when the elapsed frame time brings the
      progress to 100 at 0.01 per millisecond; until then progress is the
      elapsed time times 0.01 added to the starting progress. */
  lemma {:induction false} ExplorationTiming(p: Planet, dts: seq<real>)
    requires p.isExploring && !p.isExplored && p.explorationProgress < FullProgress
    requires forall i :: 0 <= i < |dts| ==> dts[i] >= 0.0
    ensures var q := AdvanceFrames(p, dts);
      && (q.isExplored <==> p.explorationProgress + Sum(dts) * ProgressPerMs >= FullProgress)
      && (q.isExplored ==> q.explorationProgress == FullProgress)
      && (!q.isExplored ==> q.isExploring && q.explorationProgress == p.explorationProgress + Sum(dts) * ProgressPerMs)
    decreases |dts|
  {
    if |dts| > 0 {
      var p1 := Advance(p, dts[0]);
      var rest := dts[1..];
      assert forall i :: 0 <= i < |rest| ==> rest[i] == dts[i + 1];
      SumNonNegative(rest);
      assert Sum(dts) == dts[0] + Sum(rest);
      assert AdvanceFrames(p, dts) == AdvanceFrames(p1, rest);
      if Completes(p, dts[0]) {
        ExploredStaysExplored(p1, rest);
      } else {
        ExplorationTiming(p1, rest);
      }
    }
  }

  /** From a fresh start, exploring takes exactly 10 000 ms of frame time. */
  lemma TenSecondsToExplore(p: Planet, dts: seq<real>)
    requires p.isExploring && !p.isExplored && p.explorationProgress == 0.0
    requires forall i :: 0 <= i < |dts| ==> dts[i] >= 0.0
    ensures AdvanceFrames(p, dts).isExplored <==> Sum(dts) >= 10000.0
  {
    ExplorationTiming(p, dts);
  }

  /** A deposit planet (cost 10) cannot be started with 5 energy, and with 20
      it leaves 10 and starts exploring. */
  lemma DepositScenario(s: GameState, i: nat)
    requires i < |s.planets| && PlanetOk(s.planets[i]) && s.planets[i].kind == Deposit
    requires !s.planets[i].isExplored && !s.planets[i].isExploring
    ensures StartExploration(s.(energy := 5.0), i) == Err(InsufficientEnergy)
    ensures StartExploration(s.(energy := 20.0), i).Ok?
    ensures StartExploration(s.(energy := 20.0), i).value.energy == 10.0
  {
  }
}

=== FILE: tables.dfy ===
/** Static configuration of the station game: the planet products, the bank
    boosters, the station level table, and the random draws the game makes
    from them. */
module Tables {

  datatype Option<T> = None | Some(value: T)

  /** A source of `Math.random()` values: the k-th number drawn. */
  type Stream = nat -> real

  /** A single `Math.random()` result lies in [0, 1). */
  predicate Unit(r: real) {
    0.0 <= r < 1.0
  }

  ghost predicate UnitStream(rand: Stream) {
    forall k: nat :: Unit(rand(k))
  }

  /** `r * span` for a draw `r` in [0, 1) lies in [0, span], short of
      `span` itself when the span is positive. */
  lemma ScaleUnit(r: real, span: real)
    requires Unit(r)
    ensures span >= 0.0 ==> 0.0 <= r * span <= span
    ensures span > 0.0 ==> r * span < span
  {
    assert span - r * span == (1.0 - r) * span;
    if span > 0.0 {
      assert 1.0 - r > 0.0;
      assert (1.0 - r) * span > 0.0;
    }
  }

  /** `Math.floor(r * n)`: the index a uniform draw selects among `n` choices. */
  function PickIndex(r: real, n: nat): (i: nat)
    requires Unit(r) && n > 0
    ensures i < n
    ensures (i as real) <= r * (n as real) < (i as real) + 1.0
  {
    ScaleUnit(r, n as real);
    (r * (n as real)).Floor
  }

  /** The total of a sequence of frame durations. */
  function Sum(dts: seq<real>): real
    decreases |dts|
  {
    if |dts| == 0 then 0.0 else dts[0] + Sum(dts[1..])
  }

  lemma {:induction false} SumNonNegative(dts: seq<real>)
    requires forall i :: 0 <= i < |dts| ==> dts[i] >= 0.0
    ensures Sum(dts) >= 0.0
    decreases |dts|
  {
    if |dts| > 0 {
      SumNonNegative(dts[1..]);
    }
  }

  // ---------------------------------------------------------------------
  // Filtering: booster expiry and the minigame's removal passes all keep
  // the elements that pass a test, in order

  /** The elements of `xs` that pass `keep`, in their original order. */
  function Filter<T>(xs: seq<T>, keep: T -> bool): (r: seq<T>)
    ensures |r| <= |xs|
    decreases |xs|
  {
    if |xs| == 0 then []
    else (if keep(xs[0]) then [xs[0]] else []) + Filter(xs[1..], keep)
  }

  lemma {:induction false} FilterMembers<T>(xs: seq<T>, keep: T -> bool)
    ensures forall x :: x in Filter(xs, keep) <==> x in xs && keep(x)
    decreases |xs|
  {
    if |xs| > 0 {
      FilterMembers(xs[1..], keep);
      assert forall x :: x in xs <==> x == xs[0] || x in xs[1..];
    }
  }

  lemma {:induction false} FilterConcat<T>(a: seq<T>, b: seq<T>, keep: T -> bool)
    ensures Filter(a + b, keep) == Filter(a, keep) + Filter(b, keep)
    decreases |a|
  {
    if |a| == 0 {
      assert a + b == b;
    } else {
      var head := if keep(a[0]) then [a[0]] else [];
      assert (a + b)[0] == a[0] && (a + b)[1..] == a[1..] + b;
      assert Filter(a + b, keep) == head + Filter(a[1..] + b, keep);
      FilterConcat(a[1..], b, keep);
      assert Filter(a, keep) == head + Filter(a[1..], keep);
    }
  }

  /** Filtering one more element at the end: what a pass from the last
      element to the first decides first. */
  lemma FilterSnoc<T>(xs: seq<T>, x: T, keep: T -> bool)
    ensures Filter(xs + [x], keep) == Filter(xs, keep) + (if keep(x) then [x] else [])
  {
    FilterConcat(xs, [x], keep);
    assert [x][1..] == [];
  }

  lemma {:induction false} FilterAll<T>(xs: seq<T>, keep: T -> bool)
    requires forall i :: 0 <= i < |xs| ==> keep(xs[i])
    ensures Filter(xs, keep) == xs
    decreases |xs|
  {
    if |xs| > 0 {
      FilterAll(xs[1..], keep);
    }
  }

  lemma {:induction false} FilterNone<T>(xs: seq<T>, keep: T -> bool)
    requires forall i :: 0 <= i < |xs| ==> !keep(xs[i])
    ensures Filter(xs, keep) == []
    decreases |xs|
  {
    if |xs| > 0 {
      FilterNone(xs[1..], keep);
    }
  }

  lemma {:induction false} FilterIdempotent<T>(xs: seq<T>, keep: T -> bool)
    ensures Filter(Filter(xs, keep), keep) == Filter(xs, keep)
    decreases |xs|
  {
    if |xs| > 0 {
      FilterIdempotent(xs[1..], keep);
      var head := if keep(xs[0]) then [xs[0]] else [];
      FilterConcat(head, Filter(xs[1..], keep), keep);
      if keep(xs[0]) {
        assert Filter(head, keep) == [xs[0]] by {
          assert head[1..] == [];
        }
      }
    }
  }

  /** Being a prefix is transitive. */
  lemma PrefixChain<T>(a: seq<T>, b: seq<T>, c: seq<T>)
    requires |a| <= |b| <= |c| && b[..|a|] == a && c[..|b|] == b
    ensures c[..|a|] == a
  {
    assert c[..|a|] == c[..|b|][..|a|];
  }

  /** The elements of `xs` from the last to the first. */
  function Reverse<T>(xs: seq<T>): (r: seq<T>)
    ensures |r| == |xs|
    ensures forall i :: 0 <= i < |xs| ==> r[i] == xs[|xs| - 1 - i]
    decreases |xs|
  {
    if |xs| == 0 then [] else [xs[|xs| - 1]] + Reverse(xs[..|xs| - 1])
  }

  // ---------------------------------------------------------------------
  // Planet products

  /** The eight financial products, in the declaration order of the table. */
  datatype PlanetKind = Deposit | Credit | Investment | Insurance | Card | Mortgage | Business | Pension

  const PlanetKinds: seq<PlanetKind> :=
    [Deposit, Credit, Investment, Insurance, Card, Mortgage, Business, Pension]

  function PlanetCost(k: PlanetKind): real {
    match k
    case Deposit => 10.0
    case Credit => 15.0
    case Investment => 20.0
    case Insurance => 25.0
    case Card => 12.0
    case Mortgage => 30.0
    case Business => 35.0
    case Pension => 18.0
  }

  function PlanetReward(k: PlanetKind): real {
    match k
    case Deposit => 50.0
    case Credit => 75.0
    case Investment => 100.0
    case Insurance => 125.0
    case Card => 60.0
    case Mortgage => 150.0
    case Business => 175.0
    case Pension => 90.0
  }

  /** Every product costs something to explore and pays back five times its cost. */
  lemma PlanetTableShape(k: PlanetKind)
    ensures PlanetCost(k) > 0.0
    ensures PlanetReward(k) == 5.0 * PlanetCost(k)
  {
    match k
    case Deposit =>
    case Credit =>
    case Investment =>
    case Insurance =>
    case Card =>
    case Mortgage =>
    case Business =>
    case Pension =>
  }

  // ---------------------------------------------------------------------
  // Bank boosters

  datatype BoosterKind = DepositBooster | CreditBooster | InvestmentBooster

  const BoosterKinds: seq<BoosterKind> := [DepositBooster, CreditBooster, InvestmentBooster]

  /** A booster's price, optional income multiplier, optional one-time energy
      bonus, and lifetime in milliseconds. */
  datatype BoosterSpec = BoosterSpec(cost: real, multiplier: Option<real>, bonus: Option<real>, duration: int)

  function BoosterData(k: BoosterKind): BoosterSpec {
    match k
    case DepositBooster => BoosterSpec(50.0, Some(1.5), None, 300000)
    case CreditBooster => BoosterSpec(0.0, None, Some(100.0), 600000)
    case InvestmentBooster => BoosterSpec(200.0, Some(2.0), None, 1800000)
  }

  // ---------------------------------------------------------------------
  // Station levels

  datatype LevelSpec = LevelSpec(level: int, energyPerHour: real, capacity: real, cost: real)

  const StationLevels: seq<LevelSpec> := [
    LevelSpec(1, 10.0, 100.0, 0.0),
    LevelSpec(2, 25.0, 250.0, 100.0),
    LevelSpec(3, 50.0, 500.0, 300.0),
    LevelSpec(4, 100.0, 1000.0, 800.0),
    LevelSpec(5, 200.0, 2000.0, 2000.0)
  ]

  /** `levels.find(l => l.level === level)`: the first entry with that level. */
  function FindLevel(levels: seq<LevelSpec>, level: int): (r: Option<LevelSpec>)
    ensures r.Some? ==> exists i :: 0 <= i < |levels| && levels[i] == r.value && r.value.level == level
    ensures r.None? <==> forall i :: 0 <= i < |levels| ==> levels[i].level != level
  {
    if |levels| == 0 then None
    else if levels[0].level == level then Some(levels[0])
    else FindLevel(levels[1..], level)
  }

  /** `find` stops at the first match: when entry `i` is the first with the
      wanted level, that entry is the one returned, whatever follows it. */
  lemma {:induction false} FindLevelFirst(levels: seq<LevelSpec>, level: int, i: nat)
    requires i < |levels| && levels[i].level == level
    requires forall j :: 0 <= j < i ==> levels[j].level != level
    ensures FindLevel(levels, level) == Some(levels[i])
    decreases i
  {
    if i > 0 {
      FindLevelFirst(levels[1..], level, i - 1);
    }
  }

  /** The level's row, falling back to the first row when the level is not in the table. */
  function LevelOf(level: int): (l: LevelSpec)
    ensures 1 <= level <= |StationLevels| ==> l == StationLevels[level - 1]
    ensures !(1 <= level <= |StationLevels|) ==> l == StationLevels[0]
    ensures l.energyPerHour >= 10.0 && l.capacity >= 100.0
  {
    match FindLevel(StationLevels, level)
    case Some(l) => l
    case None => StationLevels[0]
  }

  function Capacity(level: int): (c: real)
    ensures c >= 100.0
  {
    LevelOf(level).capacity
  }

  /** The row for the next level, if the table has one. */
  function NextLevel(level: int): (r: Option<LevelSpec>)
    ensures r.Some? <==> 0 <= level < |StationLevels|
    ensures r.Some? ==> r.value == StationLevels[level]
  {
    FindLevel(StationLevels, level + 1)
  }
}

=== FILE: world.dfy ===
/** The persistent game state and the records it holds: revealed areas,
    planets and active boosters. */
module World {
  import opened Tables

  datatype ResourceKind = EnergyResource | OxygenResource

  /** A revealed circle of the world map, in world coordinates. */
  datatype Area = Area(
    x: real, y: real, radius: real,
    hasResources: bool, resourceType: ResourceKind,
    offsetX: real, offsetY: real)

  /** A product node on the map. `isExploring` and `isExplored` together
      encode the status Idle / Exploring / Explored. The display fields
      (name, colour, icon) are left out. */
  datatype Planet = Planet(
    id: real, x: real, y: real, kind: PlanetKind,
    energyCost: real, energyReward: real,
    isExplored: bool, explorationProgress: real, isExploring: bool)

  /** An activated booster; it is active while `now - startTime < duration`. */
  datatype Booster = Booster(kind: BoosterKind, startTime: int, duration: int)

  datatype GameState = GameState(
    stationLevel: int,
    energy: real,
    boosters: seq<Booster>,
    discoveredAreas: seq<Area>,
    planets: seq<Planet>,
    sessionCargoSpawned: bool,
    totalDistance: real,
    missionsCompleted: int)

  /** The screen-to-world offset of the map view. */
  datatype Camera = Camera(x: real, y: real)

  /** Why an action is refused. `ButtonDisabled` is a panel button that was
      drawn disabled and so ignores clicks. */
  datatype GameError =
    | InsufficientEnergy | AlreadyExploring | AlreadyExplored | MaxLevelReached | UnknownLevel
    | ButtonDisabled

  datatype Result<T> = Ok(value: T) | Err(error: GameError)

  const DefaultState: GameState := GameState(1, 20.0, [], [], [], false, 0.0, 0)

  function Min(a: real, b: real): real {
    if a <= b then a else b
  }

  function Max(a: real, b: real): real {
    if a >= b then a else b
  }

  function Abs(a: real): real {
    if a < 0.0 then -a else a
  }

  lemma MulPositive(u: real, v: real)
    requires u > 0.0 && v > 0.0
    ensures u * v > 0.0
  {
  }

  lemma MulNonNegative(u: real, v: real)
    requires u >= 0.0 && v >= 0.0
    ensures u * v >= 0.0
  {
    if u > 0.0 && v > 0.0 {
      MulPositive(u, v);
    }
  }

  /** For a distance `d >= 0`, comparing `d` with a bound is the same as
      comparing squares: this is why the model can test `Math.hypot(dx, dy)`
      against a radius through `dx * dx + dy * dy` without a square root. */
  lemma SquareCompare(d: real, bound: real)
    requires d >= 0.0
    ensures bound > 0.0 ==> (d < bound <==> d * d < bound * bound)
    ensures bound >= 0.0 ==> (d <= bound <==> d * d <= bound * bound)
  {
    if bound >= 0.0 {
      if d < bound {
        var u, v := bound - d, bound + d;
        MulPositive(u, v);
        assert bound * bound - d * d == u * v;
      } else if d > bound {
        var u, v := d - bound, bound + d;
        MulPositive(u, v);
        assert d * d - bound * bound == u * v;
      }
    }
  }

  /** The status encoding of a planet is consistent with its progress, and
      its price and reward come from the product table. */
  predicate PlanetOk(p: Planet) {
    && !(p.isExplored && p.isExploring)
    && (p.isExplored ==> p.explorationProgress == 100.0)
    && (p.isExploring ==> 0.0 <= p.explorationProgress < 100.0)
    && (!p.isExplored && !p.isExploring ==> p.explorationProgress == 0.0)
    && p.energyCost == PlanetCost(p.kind)
    && p.energyReward == PlanetReward(p.kind)
  }

  /** What every reachable state satisfies: a level from the table,
      non-negative energy, consistent planets and proper areas. */
  predicate Valid(s: GameState) {
    && 1 <= s.stationLevel <= |StationLevels|
    && s.energy >= 0.0
    && s.missionsCompleted >= 0
    && (forall i :: 0 <= i < |s.planets| ==> PlanetOk(s.planets[i]))
    && (forall i :: 0 <= i < |s.discoveredAreas| ==> s.discoveredAreas[i].radius > 0.0)
  }

  lemma DefaultStateValid()
    ensures Valid(DefaultState)
    ensures Capacity(DefaultState.stationLevel) == 100.0
  {
  }
}
